=== FILE: README.md ===
# votebeats: the vote-ordered song queue, in Dafny

votebeats lets fans add YouTube links to a creator's queue. Signed-in users upvote
and downvote the queued songs, and the creator plays the most-upvoted song next.
This project models the core of that system as pure functions over immutable values:

- the five API route files under `app/api/streams`: add and list, upvote, downvote,
  play next, and "my streams";
- the YouTube link recogniser those routes use;
- the client-side list logic of the room page:
  - the refresh that sorts the queue by votes;
  - the optimistic vote toggle and its reconciliation;
  - the merge of broadcast `vote-update` events;
  - the body of the add-song request.

The database is a value `Db` with three parts:
- the Stream table;
- the Upvote table, unique on the pair (user, stream);
- the CurrentStream table, one row per creator.

Tables are sequences, and the model reads rows in storage order. The database
promises no row order for queries without `orderBy`, and no contract here depends on
one: the listings state which rows they hold and how many times, not their order, and
PlayNext states only that its choice has the most votes.

Each writing route (add, upvote, downvote, play next) is a function from the database
and the request's inputs to an `Outcome`: an HTTP status, a JSON payload, and the
database afterwards. The two listing routes (GET /api/streams and GET /api/streams/my)
never write, so they return only a `Response`; `Server.Step` pairs it with the
unchanged database to make an `Outcome`.

Some inputs become plain parameters:
- the session, and the user row looked up by the session's email, are one optional
  user id;
- what `ytdl.getInfo` reports is a parameter (`VideoDetails`, None when the call
  throws);
- the clock of `playedTs` is a parameter;
- the server's reply a client receives is a parameter.

Modules, one concept each:

- `Js`: JavaScript conventions the code relies on:
  - undefined values;
  - truthiness of strings;
  - `x || 0`;
  - the ECMAScript whitespace set of `\s` and `trim`.
- `Seqs`: the table filter and find-first that Prisma's queries perform, and `map`, with
  the lemma that mapping two orderings of the same elements gives the same multiset.
- `Sorting`: a stable sort by an integer key. This is the behaviour of
  `Array.prototype.sort` (ECMA-262 2023 edition, section 23.1.3.30).
- `YouTubeUrl`: `YT_REGEX` and `extractYouTubeId`. The regex is written as a relation
  (`Matches`). The part in front of the id is four groups of literal options (the
  scheme, `www.`, `m.` and the host, whose alternation is written out as nine strings).
  A parser that never backtracks is proved to agree with the backtracking regex on
  such groups whenever they are unambiguous, and the regex's groups are. It follows
  that `extractYouTubeId` returns an id exactly when the regex matches with that capture.
- `Store`:
  - the tables;
  - the integrity the routes keep, one request at a time (`Wf`);
  - vote counting.
- `Http`: statuses, payloads, and the per-stream projection both list routes return.
- The routes:
  - `StreamsRoute`: POST and GET `/api/streams`;
  - `UpvoteRoute` and `DownvoteRoute`;
  - `NextRoute`: `/api/streams/next`;
  - `MyRoute`: `/api/streams/my`.
- `Server`: the routes as one state machine. Integrity, monotonicity of `played`, and
  conservation of each creator's queue are proved over any run of requests.
- `StreamView`: `refreshStream`.
- `QueueClient`: `handleVote`, `handleVoteUpdate`, and `handleAddSong`.

## Behaviour worth knowing

- **Votes are not idempotent.** A repeated upvote violates the unique key
  `userId_streamId`. Deleting a vote row that is not there throws. Both routes answer
  these with 411 "Error while upvote" and write nothing.
- **Ties are left to the database.** PlayNext orders only by vote count, with no
  second key. The model takes the first maximal stream in table order. Its contract
  states only maximality, which is all the query promises.
- **PlayNext marks the chosen stream played at once.** The stream counts as played
  from the moment it is selected.
- **There are no rooms or sequence numbers.** The socket server rebroadcasts every
  `vote-update` to every connection, the sender included.
- **The server reply never restores the true count.** The reconciliation compares the
  reply's `upvotes` with the prediction. The vote routes send no such field, so a
  successful vote leaves the song's count and `hasUpvoted` undefined on the client
  (`SuccessfulVoteForgetsCount`).
- **The add-song request always targets the sender's own queue.** It posts the
  signed-in user's id as `creatorId`, whichever room is being viewed
  (`AddSongRequest`).

## Model

| member | source | states |
|---|---|---|
| Js.Trim | components/Queue.tsx:182 | `songUrl.trim()` is empty exactly when every character of the URL is ECMAScript whitespace |
| Sorting.SortBy | components/StreamView.tsx:54-56 | the sorted list is ordered by the key and is a permutation (same multiset) of the input |
| Sorting.SortByIsStable | components/StreamView.tsx:54-56 | elements with equal keys keep their relative order, as the stable `Array.prototype.sort` requires |
| YouTubeUrl.ParsePartsSound | app/api/streams/route.ts:8 | whatever the non-backtracking parser consumes for a sequence of regex groups, those groups accept |
| YouTubeUrl.ParsePartsComplete | app/api/streams/route.ts:8 | for unambiguous groups, whatever the groups accept at the start of a string the parser consumes exactly, whatever follows |
| YouTubeUrl.PrefixUnambiguous | app/api/streams/route.ts:8 | the four groups in front of the id are unambiguous: each group's options are prefix-free, and each optional group starts differently from anything that may follow it |
| YouTubeUrl.PrefixLengthSound | app/api/streams/route.ts:8 | what the parser consumes before the id is a prefix the regex accepts: optional scheme, `www.`, `m.`, then a domain with a path or `youtu.be/` |
| YouTubeUrl.PrefixLengthComplete | app/api/streams/route.ts:8 | every accepted prefix is found in full, whatever follows it, so the regex has one way to match a prefix |
| YouTubeUrl.ExtractYouTubeId | app/api/streams/route.ts:21-24 | a returned id is 11 characters of `[A-Za-z0-9_-]` |
| YouTubeUrl.ExtractYouTubeIdSound | app/api/streams/route.ts:8-24 | a returned id is what the regex captures as group 1 when it matches the URL |
| YouTubeUrl.ExtractYouTubeIdIsExact | app/api/streams/route.ts:8 | `extractYouTubeId(url)` is `id` if and only if the anchored regex matches `url` capturing `id`, and null exactly when it does not match |
| YouTubeUrl.IdAfterPrefixIsExtracted | app/api/streams/route.ts:8 | an accepted prefix, 11 id characters and a whitespace-free tail always give those 11 characters; a longer id is cut to its first 11 |
| YouTubeUrl.LeadingWhitespaceIsRejected | app/api/streams/route.ts:8 | a link starting with whitespace never matches |
| Store.Without | app/api/streams/downvote/route.ts:33-40 | deleting the row of a pair removes exactly that pair and keeps every other row |
| Store.VoteCountAppend | app/api/streams/route.ts:147-151 | a stream's `_count.upvotes` over two concatenated tables is the sum of its counts in each |
| Store.CountPositiveIffVoted | app/api/streams/my/route.ts:28-35 | a stream's count is positive exactly when some vote row names it |
| Store.VoteCountWithout | app/api/streams/downvote/route.ts:33-40 | with unique pairs, deleting a present pair lowers its stream's count by one and no other count |
| Store.WithoutKeepsUnique | app/api/streams/downvote/route.ts:33-40 | deleting a vote row keeps the pairs unique |
| Http.FindStream | app/api/streams/route.ts:160-167 | the stream found has the requested id, and none is found exactly when no row has it |
| Http.ProjectFilterListsExactly | app/api/streams/route.ts:141-175 | filtering the table and projecting lists exactly the kept rows, each as many times as the table holds it (as multisets, not only as sets), each with its vote count and `hasUpvoted` |
| StreamsRoute.PickImages | app/api/streams/route.ts:64-71 | `bigImg` is a widest thumbnail; `smallImg` is the widest of the rest with two or more thumbnails, the same one with one; none exists with no thumbnails |
| StreamsRoute.FindVideo | app/api/streams/route.ts:42-47 | the duplicate check finds a stream of the creator with the video exactly when one exists, played or not |
| StreamsRoute.AddStream | app/api/streams/route.ts:26-110 | 400 for a schema failure or a rejected link, 409 with the existing id exactly for a duplicate, 500 whenever metadata fails or has no thumbnails, all writing nothing; 201 exactly otherwise, appending one unplayed stream with a fresh id, the creator, URL, parsed video id, title, images and adder |
| StreamsRoute.ListQueue | app/api/streams/route.ts:112-178 | 411 without a user, checked before the 400 for a missing `creatorId`; otherwise exactly the creator's unplayed streams, each listed as many times as the table holds it, each with its vote count and whether the caller voted, and the creator's current stream if a row exists |
| UpvoteRoute.VoteCountAppendOne | app/api/streams/upvote/route.ts:26-31 | adding a vote row raises its stream's count by one and no other |
| UpvoteRoute.Upvote | app/api/streams/upvote/route.ts:12-45 | 411 without a session; success exactly when the body names a stream that exists and the pair is new, played streams included; then exactly that pair is added and the reply echoes the stream id; every failure is 411 "Error while upvote" with nothing written |
| DownvoteRoute.Downvote | app/api/streams/downvote/route.ts:12-51 | 411 without a user; success exactly when the pair is present, returning the deleted row and removing exactly that pair, lowering only that stream's count; otherwise 411 with nothing written |
| NextRoute.Best | app/api/streams/next/route.ts:25-35 | the chosen stream is one of the caller's unplayed streams with a count no smaller than any other such stream (the first such), and none is chosen exactly when there is no candidate |
| NextRoute.PlayNext | app/api/streams/next/route.ts:6-66 | 411 without a user and 404 without a candidate, both writing nothing; otherwise the reply is the chosen stream as read (still unplayed), it becomes the caller's current stream, it alone is marked played at the given time, and nothing else changes |
| NextRoute.MarkPlayedCount | app/api/streams/next/route.ts:52-58 | marking a uniquely identified stream played lowers its owner's unplayed count by one and leaves every other user's count alone |
| NextRoute.PlayNextConsumesOne | app/api/streams/next/route.ts:41-60 | a successful PlayNext on a sound database removes exactly one stream from the caller's unplayed ones and none from anyone else's |
| MyRoute.MyStreams | app/api/streams/my/route.ts:6-38 | 400 exactly when neither `creatorId` nor the session user gives an id; a `creatorId` wins and lists all the creator's streams, played ones included, each as many times as the table holds it, with `hasUpvoted` meaning any vote exists; otherwise the session user's own streams, with the same multiplicity, with their own votes |
| MyRoute.AnyVoteIsCounted | app/api/streams/my/route.ts:24-36 | with the vote filter empty, `hasUpvoted` holds exactly when the count is positive |
| Server.AddSongKeepsWf | app/api/streams/route.ts:42-93 | adding a stream keeps ids unique and below the counter, one stream per creator and video, and the foreign keys |
| Server.UpvoteKeepsWf | app/api/streams/upvote/route.ts:26-31 | an upvote keeps vote pairs unique and pointing at existing streams |
| Server.DownvoteKeepsWf | app/api/streams/downvote/route.ts:33-40 | a downvote keeps the database's integrity |
| Server.PlayNextKeepsWf | app/api/streams/next/route.ts:41-60 | playing the next stream keeps the database's integrity; the current-stream row points at an existing stream |
| Server.StepKeepsWf | app/api/streams/route.ts:26-189 | every request keeps the database's integrity |
| Server.StepEvolves | app/api/streams/next/route.ts:52-58 | no request removes a stream row or changes its id, and none sets `played` back to false |
| Server.RunKeepsWf | app/api/streams/route.ts:26-189 | any sequence of requests keeps the integrity |
| Server.RunEvolves | app/api/streams/next/route.ts:52-58 | over any run, stream rows persist and `played` never goes from true to false |
| Server.UnplayedCountAppend | app/api/streams/route.ts:84-86 | appending a stream raises the unplayed count of its owner by one if it is unplayed |
| Server.StepCountsQueue | app/api/streams/next/route.ts:25-60 | one request changes a creator's unplayed count by the streams it adds to that queue minus the streams it plays from it |
| Server.QueueIsConserved | app/api/streams/next/route.ts:25-60 | over any run, a creator's unplayed streams equal the initial ones plus those added minus those played, so successful PlayNext calls never outnumber the streams the queue held and received |
| Server.UpvoteThenDownvoteRestores | app/api/streams/downvote/route.ts:33-40 | an upvote followed by the same user's downvote of the same stream restores the database exactly |
| Server.UpvoteTwiceFails | app/api/streams/upvote/route.ts:26-45 | repeating a successful upvote is answered 411 "Error while upvote" |
| Server.DownvoteTwiceFails | app/api/streams/downvote/route.ts:33-51 | repeating a successful downvote is answered 411 and writes nothing |
| Server.AddTwiceConflicts | app/api/streams/route.ts:42-56 | after a successful add, any link to the same video for the same creator gets 409 with the new stream's id and writes nothing |
| StreamView.SortByVotes | components/StreamView.tsx:54-56 | the shown list is a permutation of the reply's streams with `upvotes \|\| 0` non-increasing |
| StreamView.SortByVotesIsStable | components/StreamView.tsx:54-56 | entries with equal shown votes keep the server's order |
| StreamView.RefreshStream | components/StreamView.tsx:45-66 | no target leaves the state alone; a failed load keeps list and current stream and ends loading; a successful one shows the reply's streams sorted by votes and the active stream, or none |
| StreamView.RefreshShowsQueue | components/StreamView.tsx:45-59 | refreshing against the server shows exactly the creator's unplayed streams, as a multiset of the table's rows, with their counts and the viewer's votes, most votes first, and the creator's current stream exactly when its row points at an existing stream; without a user the list stays |
| QueueClient.SetVotes | components/Queue.tsx:130-132 | only entries with the song's id get the new fields; order and other entries stay |
| QueueClient.StartVote | components/Queue.tsx:110-147 | no-op while the song's vote is in flight or without a user; a missing song takes the error path; otherwise the first entry with the id decides: downvote if it shows upvoted, the prediction is the negation and the count moved by one, applied to matching entries only, and broadcast when connected |
| QueueClient.FinishVote | components/Queue.tsx:149-167 | a failed request asks for a refresh and changes nothing; a successful one overwrites the song's fields from the reply exactly when the reply's `upvotes` differs from the prediction, which is always, since no route's reply has that field, so both fields become undefined |
| QueueClient.MergeVoteUpdate | components/Queue.tsx:63-74 | an event sets the named song's count, and its `hasUpvoted` only when the event is the signed-in user's; no other entry changes and the order stays |
| QueueClient.MergeIsIdempotent | components/Queue.tsx:63-74 | receiving the same event twice equals receiving it once |
| QueueClient.MergeCommutes | components/Queue.tsx:63-74 | events about different songs commute |
| QueueClient.OwnEchoIsNoOp | components/Queue.tsx:130-147 | the rebroadcast of the sender's own event leaves its optimistic list unchanged |
| QueueClient.SuccessfulVoteForgetsCount | components/Queue.tsx:152-160 | after a successful vote the reconciliation always runs and leaves the song's count and `hasUpvoted` undefined; the echo of the sender's event restores the prediction |
| QueueClient.VoteOnListedEntry | components/Queue.tsx:125-127 | for an entry the server listed, the chosen endpoint succeeds and moves the count by one in the predicted direction |
| QueueClient.PredictionMatchesServer | components/Queue.tsx:125-147 | when the list shows what the server holds, the vote request succeeds and the predicted count and `hasUpvoted` are the server's afterwards |
| QueueClient.VoteOnFreshListingMatchesServer | components/Queue.tsx:125-147 | voting on the listing GET /api/streams just returned, the prediction is what the server stores afterwards |
| QueueClient.AddSongRequest | components/Queue.tsx:181-191 | nothing is sent for a blank URL or without a user; otherwise the untrimmed URL is posted into the signed-in user's own queue with the session name |
| QueueClient.NamelessSessionIsRejected | components/Queue.tsx:187-191 | a session without a name sends no `userName`, and the route answers 400 "Validation error" without writing |

## Left out

- The DELETE handler of `/api/streams` (app/api/streams/route.ts:191-206) only reads one row and never writes. As a transition it is the identity.
- Storage failures are not modelled: the in-memory database never throws. These are the 500 answers of the GET routes (app/api/streams/route.ts:180-188, app/api/streams/my/route.ts:39-45) and any Prisma error other than the unique-key and missing-row cases.
- A request body that is not JSON is not a model input; the model starts from the parsed body. In POST /api/streams, `req.json()` throws a non-schema error and the reply is 500 (app/api/streams/route.ts:28, 95-108). In the vote routes, `req.json()` throws inside the `try` and the reply is 411 "Error while upvote" (app/api/streams/upvote/route.ts:24, 38-45; app/api/streams/downvote/route.ts:31, 46-51). That reply is the same as for a body without a `streamId`, which the model covers as `streamId == None`.
- The metadata service `ytdl.getInfo`, the session lookup, and the clock are parameters, not modelled services.
- Concurrency is not modelled. Each request is one atomic step. This covers:
  - the `Promise.all` of the two writes in the next route;
  - the racy duplicate check before `create`;
  - the concurrent HTTP request and socket emit of `handleVote`.
- Timers and UI effects are left out:
  - the timer that clears `votingStates` after 300 ms;
  - toasts, logging, sharing, and the player component.
  `StartVote` shows the song entering the in-flight set; it leaves it by the timer only.
- The socket transport and its reconnect refresh are left out. Only the rebroadcast-to-all behaviour is used, in `OwnEchoIsNoOp` and `SuccessfulVoteForgetsCount`.
- The stream columns `type` (always "Youtube") and `createAt` are left out. So are the constant `message` strings of the 201 and 409 replies, and the `error` field of the 500 reply of the add route (app/api/streams/route.ts:103-108), which carries the thrown error's message.
- StreamsRoute.PickImages: a thumbnail always has a `url` here. The placeholder fallbacks of `smallImg` and `bigImg` are therefore unreachable: with no thumbnails, indexing the last one throws first and the route answers 500.
- StreamsRoute.AddStream: ids are drawn from a counter. This stands for Prisma's generated ids, which are only promised to be fresh.
- UpvoteRoute.Upvote: that a vote for a missing stream fails is inferred from the vote's relation to its stream (the `_count.upvotes` include). The schema file is not part of this model.
- Identifiers are compared as strings. An id string that is not a number is not modelled: stream ids in requests are modelled as already being stream ids, and a body without a string `streamId` is None.
- QueueClient: `StartVote`, `FinishVote` and `MergeVoteUpdate` are modelled as if the room page passed its list, its setter and `refreshStream` to the queue component, as the component's props ask (components/Queue.tsx:25-37). As written, the page renders the queue with `creatorId` only (components/StreamView.tsx:131), so the component's `streams` is undefined and reading `streams.length` (components/Queue.tsx:212) throws before any of these handlers can run.
- QueueClient.StartVote: the vote button is disabled while `song.hasUpvoted` holds (components/Queue.tsx:341), so the rendered page never reaches the downvote branch of `handleVote`. The branch is modelled because the handler contains it.
- Strings are sequences of Unicode scalar values, whereas JavaScript strings are UTF-16. This matters only for the recogniser's `\S`, where it does not change the outcome.

=== FILE: downvote_route.dfy ===
/** `app/api/streams/downvote/route.ts`: POST deletes the caller's vote row by its
    compound key `userId_streamId`. Deleting a row that is not there makes `delete`
    throw, which the route answers with 411; the route is not an idempotent no-op. */
module DownvoteRoute {
  import opened Js
  import opened Store
  import opened Http
  import UpvoteRoute

  /** POST /api/streams/downvote. `user` is the user row found for the session's email,
      None without one; `streamId` is None when the body has no string `streamId`. */
  function Downvote(db: Db, user: Option<UserId>, streamId: Option<StreamId>): (o: Outcome)
    ensures user.None? ==> o == Outcome(Response(StatusUnauthenticated, Message(Unauthenticated)), db)
    ensures o.response.status == StatusOk <==>
      user.Some? && streamId.Some? && Vote(user.value, streamId.value) in db.votes
    ensures user.Some? && o.response.status != StatusOk ==>
      o == Outcome(Response(StatusUnauthenticated, Message(UpvoteRoute.UpvoteFailed)), db)
    ensures o.response.status == StatusOk ==>
      var v := Vote(user.value, streamId.value);
      && o.response.body == Downvoted(v)
      && o.db.streams == db.streams && o.db.current == db.current && o.db.nextId == db.nextId
      // exactly the pair is removed
      && (forall w :: w in o.db.votes <==> w in db.votes && w != v)
      && (NoDuplicateVotes(db.votes) ==>
            && VoteCount(o.db.votes, v.streamId) == VoteCount(db.votes, v.streamId) - 1
            && forall sid :: sid != v.streamId ==> VoteCount(o.db.votes, sid) == VoteCount(db.votes, sid))
  {
    if user.None? then
      Outcome(Response(StatusUnauthenticated, Message(Unauthenticated)), db)
    else if streamId.None? then
      Outcome(Response(StatusUnauthenticated, Message(UpvoteRoute.UpvoteFailed)), db)
    else
      var v := Vote(user.value, streamId.value);
      if v !in db.votes then
        Outcome(Response(StatusUnauthenticated, Message(UpvoteRoute.UpvoteFailed)), db)
      else
        VoteCountWithoutAll(db.votes, v);
        Outcome(Response(StatusOk, Downvoted(v)), db.(votes := Without(db.votes, v)))
  }

  lemma VoteCountWithoutAll(votes: seq<Vote>, v: Vote)
    requires v in votes
    ensures NoDuplicateVotes(votes) ==>
      && VoteCount(Without(votes, v), v.streamId) == VoteCount(votes, v.streamId) - 1
      && forall sid :: sid != v.streamId ==> VoteCount(Without(votes, v), sid) == VoteCount(votes, sid)
  {
    if NoDuplicateVotes(votes) {
      forall sid ensures VoteCount(Without(votes, v), sid)
                      == if sid == v.streamId then VoteCount(votes, sid) - 1 else VoteCount(votes, sid) {
        VoteCountWithout(votes, v, sid);
      }
    }
  }
}

=== FILE: http.dfy ===
/** What the routes answer: a status and a JSON body, and the per-stream projection
    (`upvotes` from `_count`, `hasUpvoted` from the caller's vote rows) that both
    list routes return. */
module Http {
  import opened Js
  import opened Store
  import Seqs

  const StatusOk: int := 200
  const StatusCreated: int := 201
  const StatusBadRequest: int := 400
  const StatusNotFound: int := 404
  const StatusConflict: int := 409
  /** The routes answer 411 (HTTP's Length Required) for a missing user and for
      failed vote writes. */
  const StatusUnauthenticated: int := 411
  const StatusServerError: int := 500

  const Unauthenticated: string := "Unauthenticated User"

  /** One stream as a list route returns it. */
  datatype Entry = Entry(stream: Stream, upvotes: nat, hasUpvoted: bool)

  /** The creator's CurrentStream row with its `stream` relation included. */
  datatype ActiveStream = ActiveStream(streamId: StreamId, stream: Option<Stream>)

  datatype Payload =
    | Message(text: string)
    | StreamAdded(id: StreamId)                                        // {message, id}
    | AlreadyAdded(id: StreamId)                                       // {message, id}
    | QueueData(streams: seq<Entry>, activeStream: Option<ActiveStream>)
    | Upvoted(streamId: StreamId)                                      // {data: {streamId}}
    | Downvoted(vote: Vote)                                            // {data: <deleted row>}
    | NowPlaying(stream: Stream)                                       // {stream}
    | UserStreams(streams: seq<Entry>)                                 // {streams}

  datatype Response = Response(status: int, body: Payload)

  /** A route's answer and the database after it. */
  datatype Outcome = Outcome(response: Response, db: Db)

  /** The caller's filtered vote list is non-empty; with no viewer the filter
      `{userId: undefined}` is ignored by Prisma and any vote counts. */
  predicate VotedFor(votes: seq<Vote>, viewer: Option<UserId>, sid: StreamId) {
    exists v :: v in votes && v.streamId == sid && (viewer.None? || v.userId == viewer.value)
  }

  /** `streams.map(({_count, ...rest}) => ({...rest, upvotes: _count.upvotes, hasUpvoted: ...}))` */
  function Project(streams: seq<Stream>, votes: seq<Vote>, viewer: Option<UserId>): seq<Entry> {
    seq(|streams|, i requires 0 <= i < |streams| =>
      Entry(streams[i], VoteCount(votes, streams[i].id), VotedFor(votes, viewer, streams[i].id)))
  }

  /** `stream.findFirst({where: {id}})` */
  function FindStream(db: Db, id: StreamId): (r: Option<Stream>)
    ensures r.Some? ==> r.value in db.streams && r.value.id == id
    ensures r.None? <==> !StreamExists(db, id)
  {
    match Seqs.FirstIndex(db.streams, (s: Stream) => s.id == id)
    case None => None
    case Some(i) => Some(db.streams[i])
  }

  /** The stream of each entry, in order. */
  function StreamsOf(entries: seq<Entry>): (r: seq<Stream>)
    ensures |r| == |entries| && forall i :: 0 <= i < |entries| ==> r[i] == entries[i].stream
  {
    Seqs.Map(entries, (e: Entry) => e.stream)
  }

  /** The entries list exactly the streams of `streams` that satisfy `keep`, each as
      many times as the table holds it, each with its vote count and with `hasUpvoted`
      telling whether `viewer` has voted for it. */
  ghost predicate ListsExactly(entries: seq<Entry>, streams: seq<Stream>, keep: Stream -> bool,
                               votes: seq<Vote>, viewer: Option<UserId>)
  {
    && (forall i :: 0 <= i < |entries| ==> entries[i].stream in streams && keep(entries[i].stream))
    && (forall s :: s in streams && keep(s) ==> exists i :: 0 <= i < |entries| && entries[i].stream == s)
    && (forall s :: multiset(StreamsOf(entries))[s] == if keep(s) then multiset(streams)[s] else 0)
    && (forall i :: 0 <= i < |entries| ==>
          && entries[i].upvotes == VoteCount(votes, entries[i].stream.id)
          && (entries[i].hasUpvoted <==> VotedFor(votes, viewer, entries[i].stream.id)))
  }

  /** Filtering the table and projecting each row lists exactly the rows kept. */
  lemma ProjectFilterListsExactly(streams: seq<Stream>, keep: Stream -> bool, votes: seq<Vote>, viewer: Option<UserId>)
    ensures ListsExactly(Project(Seqs.Filter(streams, keep), votes, viewer), streams, keep, votes, viewer)
  {
    var kept := Seqs.Filter(streams, keep);
    var es := Project(kept, votes, viewer);
    forall s | s in streams && keep(s) ensures exists i :: 0 <= i < |es| && es[i].stream == s {
      var i :| 0 <= i < |kept| && kept[i] == s;
      assert es[i].stream == s;
    }
    ProjectKeepsStreams(kept, votes, viewer);
  }

  /** Projecting keeps each row's stream in its place. */
  lemma ProjectKeepsStreams(streams: seq<Stream>, votes: seq<Vote>, viewer: Option<UserId>)
    ensures StreamsOf(Project(streams, votes, viewer)) == streams
  {
  }
}

=== FILE: js.dfy ===
/** JavaScript value conventions the routes and components rely on:
    values that may be undefined, truthiness of strings, `x || 0`,
    the whitespace class shared by `\s`/`\S` and `String.prototype.trim`. */
module Js {

  /** A value that may be `undefined` or `null`. */
  datatype Option<+T> = None | Some(value: T)

  /** `!!s` for a value that is a string or undefined: the empty string is falsy. */
  predicate Truthy(s: Option<string>) {
    s.Some? && s.value != ""
  }

  /** `x || 0` for a number that may be undefined (0 is falsy too, with the same result). */
  function OrZero(x: Option<int>): (r: int)
    ensures x.None? ==> r == 0
    ensures x.Some? ==> r == x.value
  {
    if x.Some? then x.value else 0
  }

  /** WhiteSpace and LineTerminator code points of ECMA-262 (section 12.2 and 12.3 of
      the 2023 edition): the characters matched by `\s` and removed by `trim`. */
  predicate IsWhitespace(c: char) {
    || c == '\t' || c == '\n' || c == '\U{000B}' || c == '\U{000C}' || c == '\r'
    || c == ' ' || c == '\U{00A0}' || c == '\U{1680}'
    || ('\U{2000}' <= c <= '\U{200A}')
    || c == '\U{2028}' || c == '\U{2029}' || c == '\U{202F}' || c == '\U{205F}'
    || c == '\U{3000}' || c == '\U{FEFF}'
  }

  /** Every character of `s` is matched by `\S`. */
  predicate NoWhitespace(s: string) {
    forall i :: 0 <= i < |s| ==> !IsWhitespace(s[i])
  }

  predicate Blank(s: string) {
    forall i :: 0 <= i < |s| ==> IsWhitespace(s[i])
  }

  /** Drops leading whitespace. */
  function TrimStart(s: string): (r: string)
    ensures |r| <= |s| && r == s[|s| - |r|..]
    ensures r == [] || !IsWhitespace(r[0])
    ensures Blank(s[..|s| - |r|])
  {
    if s != [] && IsWhitespace(s[0]) then
      var r := TrimStart(s[1..]);
      assert s[1..][..|s| - 1 - |r|] == s[1..|s| - |r|];
      r
    else
      s
  }

  /** Drops trailing whitespace. */
  function TrimEnd(s: string): (r: string)
    ensures |r| <= |s| && r == s[..|r|]
    ensures r == [] || !IsWhitespace(r[|r| - 1])
    ensures Blank(s[|r|..])
  {
    if s != [] && IsWhitespace(s[|s| - 1]) then
      TrimEnd(s[..|s| - 1])
    else
      s
  }

  /** `String.prototype.trim`; it yields the empty string (is falsy) exactly when every
      character of `s` is whitespace. */
  function Trim(s: string): (r: string)
    ensures r == [] <==> Blank(s)
  {
    TrimEnd(TrimStart(s))
  }
}

=== FILE: my_route.dfy ===
/** `app/api/streams/my/route.ts`: GET lists every stream of a creator, played ones
    included, for the creator's own dashboard or for a given `creatorId`. */
module MyRoute {
  import opened Js
  import opened Store
  import opened Http
  import Seqs

  const UserNotFound: string := "User not found"

  /** The user row looked up by the session's email. The lookup only happens when the
      query has no (truthy) `creatorId`. */
  function LookedUp(sessionUser: Option<UserId>, creatorId: Option<string>): Option<UserId> {
    if !Truthy(creatorId) then sessionUser else None
  }

  /** `user?.id || creatorId` */
  function Target(sessionUser: Option<UserId>, creatorId: Option<string>): Option<string> {
    var user := LookedUp(sessionUser, creatorId);
    if Truthy(user) then user else creatorId
  }

  /** GET /api/streams/my?creatorId=…; `sessionUser` is the user found for the session's
      email, if any. The vote filter is `{userId: user?.id}`: when a `creatorId` is given
      no user is looked up, the filter is empty, and `hasUpvoted` says whether anyone at
      all has voted for the stream. */
  function MyStreams(db: Db, sessionUser: Option<UserId>, creatorId: Option<string>): (r: Response)
    ensures r.status == StatusBadRequest <==> !Truthy(creatorId) && !Truthy(sessionUser)
    ensures r.status == StatusBadRequest ==> r.body == Message(UserNotFound)
    ensures r.status != StatusBadRequest ==> r.status == StatusOk && r.body.UserStreams?
    // a creatorId wins over the session, and then any vote counts as an upvote
    ensures Truthy(creatorId) ==>
      && r.status == StatusOk
      && ListsExactly(r.body.streams, db.streams, (s: Stream) => s.userId == creatorId.value, db.votes, None)
      && forall i :: 0 <= i < |r.body.streams| ==>
           (r.body.streams[i].hasUpvoted <==> r.body.streams[i].upvotes > 0)
    // without one, the signed-in user's own streams, with the user's own votes
    ensures !Truthy(creatorId) && Truthy(sessionUser) ==>
      && r.status == StatusOk
      && ListsExactly(r.body.streams, db.streams, (s: Stream) => s.userId == sessionUser.value,
                      db.votes, sessionUser)
      && forall i :: 0 <= i < |r.body.streams| ==>
           (r.body.streams[i].hasUpvoted <==> Vote(sessionUser.value, r.body.streams[i].stream.id) in db.votes)
  {
    var user := LookedUp(sessionUser, creatorId);
    var target := Target(sessionUser, creatorId);
    if !Truthy(target) then Response(StatusBadRequest, Message(UserNotFound))
    else
      var keep := (s: Stream) => s.userId == target.value;
      ProjectFilterListsExactly(db.streams, keep, db.votes, user);
      var entries := Project(Seqs.Filter(db.streams, keep), db.votes, user);
      assert forall i :: 0 <= i < |entries| ==>
        (entries[i].hasUpvoted <==> VotedFor(db.votes, user, entries[i].stream.id));
      assert user.None? ==> forall i :: 0 <= i < |entries| ==> (entries[i].hasUpvoted <==> entries[i].upvotes > 0) by {
        if user.None? {
          AnyVoteIsCounted(entries, db.votes);
        }
      }
      Response(StatusOk, UserStreams(entries))
  }

  /** With no viewer, `hasUpvoted` and a positive count say the same thing. */
  lemma AnyVoteIsCounted(entries: seq<Entry>, votes: seq<Vote>)
    requires forall i :: 0 <= i < |entries| ==>
      entries[i].upvotes == VoteCount(votes, entries[i].stream.id)
      && (entries[i].hasUpvoted <==> VotedFor(votes, None, entries[i].stream.id))
    ensures forall i :: 0 <= i < |entries| ==> (entries[i].hasUpvoted <==> entries[i].upvotes > 0)
  {
    forall i | 0 <= i < |entries| ensures entries[i].hasUpvoted <==> entries[i].upvotes > 0 {
      CountPositiveIffVoted(votes, entries[i].stream.id);
    }
  }
}

=== FILE: next_route.dfy ===
/** `app/api/streams/next/route.ts`: GET picks the caller's most-upvoted unplayed
    stream, makes it the caller's current stream and marks it played. The two writes
    run without a transaction in the source; the model takes the request as one step. */
module NextRoute {
  import opened Js
  import opened Store
  import opened Http

  const NoStreams: string := "No streams found"

  /** A stream PlayNext may choose for `user`. */
  predicate Candidate(s: Stream, user: UserId) {
    s.userId == user && !s.played
  }

  /** The first stream among `streams[..n]` that is a candidate with the highest
      vote count. `findFirst` with `orderBy: {upvotes: {_count: "desc"}}` leaves the
      order among equal counts to the database; taking the first is one such order. */
  function Best(streams: seq<Stream>, votes: seq<Vote>, user: UserId, n: nat): (r: Option<nat>)
    requires n <= |streams|
    ensures r.None? <==> forall j :: 0 <= j < n ==> !Candidate(streams[j], user)
    ensures r.Some? ==> r.value < n && Candidate(streams[r.value], user)
    ensures r.Some? ==> forall j :: 0 <= j < n && Candidate(streams[j], user) ==>
                          VoteCount(votes, streams[j].id) <= VoteCount(votes, streams[r.value].id)
    ensures r.Some? ==> forall j :: 0 <= j < r.value && Candidate(streams[j], user) ==>
                          VoteCount(votes, streams[j].id) < VoteCount(votes, streams[r.value].id)
  {
    if n == 0 then None
    else
      var prev := Best(streams, votes, user, n - 1);
      if !Candidate(streams[n - 1], user) then prev
      else if prev.None? then Some(n - 1)
      else if VoteCount(votes, streams[n - 1].id) > VoteCount(votes, streams[prev.value].id) then Some(n - 1)
      else prev
  }

  /** The `stream.update` write: the stream with `id` becomes played at `now`. */
  function MarkPlayed(streams: seq<Stream>, id: StreamId, now: Time): seq<Stream> {
    seq(|streams|, i requires 0 <= i < |streams| =>
      if streams[i].id == id then streams[i].(played := true, playedTs := Some(now)) else streams[i])
  }

  /** GET /api/streams/next. `user` is the user row found for the session's email. The
      response carries the stream as it was read, before it was marked played. */
  function PlayNext(db: Db, user: Option<UserId>, now: Time): (o: Outcome)
    ensures user.None? ==> o == Outcome(Response(StatusUnauthenticated, Message(Unauthenticated)), db)
    ensures user.Some? && (forall s :: s in db.streams ==> !Candidate(s, user.value)) ==>
      o == Outcome(Response(StatusNotFound, Message(NoStreams)), db)
    ensures o.response.status == StatusOk <==> user.Some? && exists s :: s in db.streams && Candidate(s, user.value)
    ensures o.response.status == StatusOk ==>
      && o.response.body.NowPlaying?
      && var chosen := o.response.body.stream;
      // one of the caller's unplayed streams with a maximal count
      && chosen in db.streams && Candidate(chosen, user.value)
      && (forall s :: s in db.streams && Candidate(s, user.value) ==>
            VoteCount(db.votes, s.id) <= VoteCount(db.votes, chosen.id))
      // it becomes current (the row is created if absent) and is marked played
      && o.db.current == db.current[user.value := chosen.id]
      && |o.db.streams| == |db.streams|
      && (forall i :: 0 <= i < |db.streams| && db.streams[i].id == chosen.id ==>
            o.db.streams[i] == db.streams[i].(played := true, playedTs := Some(now)))
      // no other stream, the previous current one included, changes
      && (forall i :: 0 <= i < |db.streams| && db.streams[i].id != chosen.id ==> o.db.streams[i] == db.streams[i])
      && o.db.votes == db.votes && o.db.nextId == db.nextId
  {
    if user.None? then
      Outcome(Response(StatusUnauthenticated, Message(Unauthenticated)), db)
    else
      match Best(db.streams, db.votes, user.value, |db.streams|)
      case None => Outcome(Response(StatusNotFound, Message(NoStreams)), db)
      case Some(i) =>
        var chosen := db.streams[i];
        Outcome(Response(StatusOk, NowPlaying(chosen)),
                db.(current := db.current[user.value := chosen.id],
                    streams := MarkPlayed(db.streams, chosen.id, now)))
  }

  /** The number of `user`'s unplayed streams. */
  function UnplayedCount(streams: seq<Stream>, user: UserId): nat {
    if streams == [] then 0
    else (if Candidate(streams[0], user) then 1 else 0) + UnplayedCount(streams[1..], user)
  }

  /** Marking played the only row with its id lowers `user`'s unplayed count by one
      when that row was one of `user`'s unplayed streams, and leaves it alone otherwise. */
  lemma {:induction false} MarkPlayedCount(streams: seq<Stream>, id: StreamId, now: Time, user: UserId, i: nat)
    requires i < |streams| && streams[i].id == id
    requires forall j :: 0 <= j < |streams| && j != i ==> streams[j].id != id
    ensures UnplayedCount(MarkPlayed(streams, id, now), user)
         == UnplayedCount(streams, user) - (if Candidate(streams[i], user) then 1 else 0)
  {
    var m := MarkPlayed(streams, id, now);
    assert m[1..] == MarkPlayed(streams[1..], id, now);
    if i == 0 {
      UnmarkedCount(streams[1..], id, now, user);
    } else {
      MarkPlayedCount(streams[1..], id, now, user, i - 1);
    }
  }

  lemma {:induction false} UnmarkedCount(streams: seq<Stream>, id: StreamId, now: Time, user: UserId)
    requires forall j :: 0 <= j < |streams| ==> streams[j].id != id
    ensures UnplayedCount(MarkPlayed(streams, id, now), user) == UnplayedCount(streams, user)
  {
    var m := MarkPlayed(streams, id, now);
    assert m == streams;
  }

  /** Under the database's integrity, a successful PlayNext removes exactly one stream
      from the caller's unplayed ones and no stream from anyone else's. */
  lemma PlayNextConsumesOne(db: Db, user: UserId, now: Time, other: UserId)
    requires Wf(db)
    requires PlayNext(db, Some(user), now).response.status == StatusOk
    ensures UnplayedCount(PlayNext(db, Some(user), now).db.streams, user) == UnplayedCount(db.streams, user) - 1
    ensures other != user ==>
      UnplayedCount(PlayNext(db, Some(user), now).db.streams, other) == UnplayedCount(db.streams, other)
  {
    var i := Best(db.streams, db.votes, user, |db.streams|).value;
    MarkPlayedCount(db.streams, db.streams[i].id, now, user, i);
    MarkPlayedCount(db.streams, db.streams[i].id, now, other, i);
  }
}

=== FILE: queue_client.dfy ===
/** `components/Queue.tsx`: the optimistic vote toggle and its reconciliation
    (`handleVote`), the merge of broadcast `vote-update` events (`handleVoteUpdate`),
    and the body `handleAddSong` posts. The socket server rebroadcasts every event to
    every connection, the sender included. */
module QueueClient {
  import opened Js
  import opened Store
  import opened Http
  import opened StreamView
  import Seqs
  import StreamsRoute
  import UpvoteRoute
  import DownvoteRoute

  /** A `vote-update` event. */
  datatype VoteUpdate = VoteUpdate(songId: StreamId, upvotes: int, hasUpvoted: bool, userId: UserId)

  datatype Endpoint = UpvoteEndpoint | DownvoteEndpoint

  /** What a click on a song's vote button does before the request returns. */
  datatype VoteStart =
    /** A vote on the song is in flight, or nobody is signed in. */
    | Skipped
    /** The song is not in the list: the catch block asks for a refresh. */
    | SongMissing(voting: set<StreamId>)
    /** The request to `endpoint` is sent and the list is updated optimistically. */
    | Sent(voting: set<StreamId>, endpoint: Endpoint, predictedVotes: int, predictedHas: bool,
           optimistic: seq<ClientEntry>, emitted: Option<VoteUpdate>)

  /** `song.hasUpvoted` as a condition: undefined is falsy. */
  predicate HasUpvoted(e: ClientEntry) {
    e.hasUpvoted == Some(true)
  }

  /** Sets the shown votes of every entry with id `songId`. */
  function SetVotes(streams: seq<ClientEntry>, songId: StreamId, upvotes: Option<int>,
                    hasUpvoted: Option<bool>): (r: seq<ClientEntry>)
    ensures |r| == |streams|
    ensures forall i :: 0 <= i < |r| ==>
      if streams[i].stream.id == songId
      then r[i] == streams[i].(upvotes := upvotes, hasUpvoted := hasUpvoted)
      else r[i] == streams[i]
  {
    seq(|streams|, i requires 0 <= i < |streams| =>
      if streams[i].stream.id == songId then streams[i].(upvotes := upvotes, hasUpvoted := hasUpvoted)
      else streams[i])
  }

  /** The first half of `handleVote`, up to the request. `voting` is the ids with a vote
      in flight (`votingStates`); `sessionId` the signed-in user's id; `connected` says
      whether the socket is up, in which case the prediction is broadcast. */
  function StartVote(streams: seq<ClientEntry>, voting: set<StreamId>, sessionId: Option<UserId>,
                     songId: StreamId, connected: bool): (r: VoteStart)
    ensures r.Skipped? <==> songId in voting || !Truthy(sessionId)
    ensures !r.Skipped? ==> r.voting == voting + {songId}
    ensures r.SongMissing? <==> !r.Skipped? && forall i :: 0 <= i < |streams| ==> streams[i].stream.id != songId
    ensures r.Sent? ==>
      exists i :: 0 <= i < |streams| && streams[i].stream.id == songId
        // the first entry with the id decides the direction and the prediction
        && (forall j :: 0 <= j < i ==> streams[j].stream.id != songId)
        && (r.endpoint == DownvoteEndpoint <==> HasUpvoted(streams[i]))
        && r.predictedHas == !HasUpvoted(streams[i])
        && r.predictedVotes == ShownVotes(streams[i]) + (if r.predictedHas then 1 else -1)
    ensures r.Sent? ==>
      // only the entries with that id change, and the order stays
      && |r.optimistic| == |streams|
      && (forall i :: 0 <= i < |streams| && streams[i].stream.id != songId ==> r.optimistic[i] == streams[i])
      && (forall i :: 0 <= i < |streams| && streams[i].stream.id == songId ==>
            r.optimistic[i] == streams[i].(upvotes := Some(r.predictedVotes), hasUpvoted := Some(r.predictedHas)))
      && (r.emitted.Some? <==> connected)
      && (connected ==> r.emitted.value == VoteUpdate(songId, r.predictedVotes, r.predictedHas, sessionId.value))
  {
    if songId in voting || !Truthy(sessionId) then Skipped
    else
      match Seqs.FirstIndex(streams, (e: ClientEntry) => e.stream.id == songId)
      case None => SongMissing(voting + {songId})
      case Some(i) =>
        var song := streams[i];
        var endpoint := if HasUpvoted(song) then DownvoteEndpoint else UpvoteEndpoint;
        var newHas := !HasUpvoted(song);
        var newVotes := ShownVotes(song) + (if newHas then 1 else -1);
        var emitted := if connected then Some(VoteUpdate(songId, newVotes, newHas, sessionId.value)) else None;
        Sent(voting + {songId}, endpoint, newVotes, newHas,
             SetVotes(streams, songId, Some(newVotes), Some(newHas)), emitted)
  }

  /** The list after the vote request settled, and whether `refreshStream` was called. */
  datatype VoteEnd = VoteEnd(streams: seq<ClientEntry>, refresh: bool)

  /** `response.data.upvotes` and `response.data.hasUpvoted`: no body a route sends has
      these fields at the top level; the vote routes answer `{data: …}`. */
  function ReplyUpvotes(p: Payload): Option<int> {
    None
  }

  function ReplyHasUpvoted(p: Payload): Option<bool> {
    None
  }

  /** The second half of `handleVote`. `streams` is the list as it is when the reply
      arrives; `reply` is None when the request did not complete. A 2xx reply whose
      `upvotes` differs from the prediction overwrites both fields of the song's
      entries; any other reply asks for a refresh. No route's body has those fields,
      so every 2xx reply overwrites them with undefined. */
  function FinishVote(streams: seq<ClientEntry>, songId: StreamId, predictedVotes: int,
                      reply: Option<Response>): (r: VoteEnd)
    ensures r.refresh <==> !(reply.Some? && 200 <= reply.value.status < 300)
    ensures r.refresh ==> r.streams == streams
    ensures !r.refresh ==> r.streams == SetVotes(streams, songId, None, None)
    ensures !r.refresh && ReplyUpvotes(reply.value.body) != Some(predictedVotes) ==>
      r.streams == SetVotes(streams, songId, ReplyUpvotes(reply.value.body), ReplyHasUpvoted(reply.value.body))
  {
    if reply.None? || !(200 <= reply.value.status < 300) then VoteEnd(streams, true)
    else if ReplyUpvotes(reply.value.body) != Some(predictedVotes) then
      VoteEnd(SetVotes(streams, songId, ReplyUpvotes(reply.value.body), ReplyHasUpvoted(reply.value.body)), false)
    else VoteEnd(streams, false)
  }

  /** `handleVoteUpdate`: the count of the named song is taken from the event, its
      `hasUpvoted` only when the event is the signed-in user's own vote. */
  function MergeVoteUpdate(streams: seq<ClientEntry>, u: VoteUpdate, sessionId: Option<UserId>): (r: seq<ClientEntry>)
    ensures |r| == |streams|
    ensures forall i :: 0 <= i < |r| ==> r[i].stream == streams[i].stream
    ensures forall i :: 0 <= i < |r| && streams[i].stream.id != u.songId ==> r[i] == streams[i]
    ensures forall i :: 0 <= i < |r| && streams[i].stream.id == u.songId ==>
      && r[i].upvotes == Some(u.upvotes)
      && r[i].hasUpvoted == (if sessionId == Some(u.userId) then Some(u.hasUpvoted) else streams[i].hasUpvoted)
  {
    seq(|streams|, i requires 0 <= i < |streams| =>
      if streams[i].stream.id == u.songId
      then streams[i].(upvotes := Some(u.upvotes),
                       hasUpvoted := if sessionId == Some(u.userId) then Some(u.hasUpvoted) else streams[i].hasUpvoted)
      else streams[i])
  }

  /** Receiving the same event twice is the same as receiving it once. */
  lemma MergeIsIdempotent(streams: seq<ClientEntry>, u: VoteUpdate, sessionId: Option<UserId>)
    ensures MergeVoteUpdate(MergeVoteUpdate(streams, u, sessionId), u, sessionId)
         == MergeVoteUpdate(streams, u, sessionId)
  {
  }

  /** Events about different songs can be received in either order. */
  lemma MergeCommutes(streams: seq<ClientEntry>, u: VoteUpdate, w: VoteUpdate, sessionId: Option<UserId>)
    requires u.songId != w.songId
    ensures MergeVoteUpdate(MergeVoteUpdate(streams, u, sessionId), w, sessionId)
         == MergeVoteUpdate(MergeVoteUpdate(streams, w, sessionId), u, sessionId)
  {
  }

  /** The server echoes a sender's own event back to it; on the optimistic list the echo
      changes nothing. */
  lemma OwnEchoIsNoOp(streams: seq<ClientEntry>, voting: set<StreamId>, sessionId: Option<UserId>, songId: StreamId)
    requires StartVote(streams, voting, sessionId, songId, true).Sent?
    ensures var s := StartVote(streams, voting, sessionId, songId, true);
      MergeVoteUpdate(s.optimistic, s.emitted.value, sessionId) == s.optimistic
  {
  }

  /** Neither vote route's reply carries `upvotes`, so a successful vote always takes
      the reconciliation branch and leaves the song's count and `hasUpvoted` undefined;
      the echo of the sender's own event, if it comes later, puts the prediction back. */
  lemma SuccessfulVoteForgetsCount(db: Db, streams: seq<ClientEntry>, voting: set<StreamId>,
                                   user: UserId, songId: StreamId)
    requires StartVote(streams, voting, Some(user), songId, true).Sent?
    ensures var s := StartVote(streams, voting, Some(user), songId, true);
      var reply := if s.endpoint == UpvoteEndpoint
                   then UpvoteRoute.Upvote(db, Some(user), Some(songId)).response
                   else DownvoteRoute.Downvote(db, Some(user), Some(songId)).response;
      reply.status == StatusOk ==>
        var end := FinishVote(s.optimistic, songId, s.predictedVotes, Some(reply));
        && !end.refresh
        && (forall i :: 0 <= i < |end.streams| && end.streams[i].stream.id == songId ==>
              end.streams[i].upvotes.None? && end.streams[i].hasUpvoted.None?)
        && MergeVoteUpdate(end.streams, s.emitted.value, Some(user)) == s.optimistic
  {
  }

  /** The vote a listed entry leads to succeeds, and the server's new count is the
      shown count moved by one in the direction of the vote. */
  lemma VoteOnListedEntry(db: Db, user: UserId, e: Entry)
    requires Wf(db) && e.stream in db.streams
    requires e.upvotes == VoteCount(db.votes, e.stream.id)
    requires e.hasUpvoted <==> Vote(user, e.stream.id) in db.votes
    ensures var sid := e.stream.id;
      var o := if e.hasUpvoted then DownvoteRoute.Downvote(db, Some(user), Some(sid))
               else UpvoteRoute.Upvote(db, Some(user), Some(sid));
      && o.response.status == StatusOk
      && VoteCount(o.db.votes, sid) == e.upvotes + (if e.hasUpvoted then -1 else 1)
      && (Vote(user, sid) in o.db.votes <==> !e.hasUpvoted)
  {
    var k :| 0 <= k < |db.streams| && db.streams[k] == e.stream;
    assert StreamExists(db, e.stream.id);
  }

  /** `entries` are what the server currently says about some of the streams, as
      seen by `user`. */
  ghost predicate Current(db: Db, entries: seq<Entry>, user: UserId) {
    forall i :: 0 <= i < |entries| ==>
      && entries[i].stream in db.streams
      && entries[i].upvotes == VoteCount(db.votes, entries[i].stream.id)
      && (entries[i].hasUpvoted <==> Vote(user, entries[i].stream.id) in db.votes)
  }

  /** The queue listing is current for its caller. */
  lemma ListingIsCurrent(db: Db, user: UserId, creator: Option<string>)
    requires Truthy(creator)
    ensures Current(db, StreamsRoute.ListQueue(db, Some(user), creator).body.streams, user)
  {
  }

  /** When the list shows what the server currently holds, the vote request succeeds
      and the prediction is the server's new count and vote. */
  lemma PredictionMatchesServer(db: Db, entries: seq<Entry>, voting: set<StreamId>, user: UserId,
                                songId: StreamId, connected: bool)
    requires Wf(db) && Current(db, entries, user)
    ensures var s := StartVote(FromServerAll(entries), voting, Some(user), songId, connected);
      s.Sent? ==>
        var o := if s.endpoint == UpvoteEndpoint
                 then UpvoteRoute.Upvote(db, Some(user), Some(songId))
                 else DownvoteRoute.Downvote(db, Some(user), Some(songId));
        && o.response.status == StatusOk
        && VoteCount(o.db.votes, songId) == s.predictedVotes
        && (s.predictedHas <==> Vote(user, songId) in o.db.votes)
  {
    var streams := FromServerAll(entries);
    var s := StartVote(streams, voting, Some(user), songId, connected);
    if s.Sent? {
      var i :| 0 <= i < |streams| && streams[i].stream.id == songId
        && (s.endpoint == DownvoteEndpoint <==> HasUpvoted(streams[i]))
        && s.predictedVotes == ShownVotes(streams[i]) + (if s.predictedHas then 1 else -1)
        && s.predictedHas == !HasUpvoted(streams[i]);
      var e := entries[i];
      assert streams[i] == FromServer(e);
      assert HasUpvoted(streams[i]) == e.hasUpvoted && ShownVotes(streams[i]) == e.upvotes;
      VoteOnListedEntry(db, user, e);
    }
  }

  /** Voting on the listing GET /api/streams just returned: the prediction is what the
      server stores after the vote. */
  lemma VoteOnFreshListingMatchesServer(db: Db, user: UserId, creator: Option<string>, voting: set<StreamId>,
                                        songId: StreamId, connected: bool)
    requires Wf(db) && Truthy(creator)
    ensures var entries := StreamsRoute.ListQueue(db, Some(user), creator).body.streams;
      var s := StartVote(FromServerAll(entries), voting, Some(user), songId, connected);
      s.Sent? ==>
        var o := if s.endpoint == UpvoteEndpoint
                 then UpvoteRoute.Upvote(db, Some(user), Some(songId))
                 else DownvoteRoute.Downvote(db, Some(user), Some(songId));
        && o.response.status == StatusOk
        && VoteCount(o.db.votes, songId) == s.predictedVotes
        && (s.predictedHas <==> Vote(user, songId) in o.db.votes)
  {
    var entries := StreamsRoute.ListQueue(db, Some(user), creator).body.streams;
    ListingIsCurrent(db, user, creator);
    PredictionMatchesServer(db, entries, voting, user, songId, connected);
  }

  /** `handleAddSong`: nothing is sent for a blank URL or without a signed-in user;
      otherwise the untrimmed URL goes into the signed-in user's own queue, whatever
      room the page shows. `sessionName` is the session's display name. */
  function AddSongRequest(songUrl: string, sessionId: Option<UserId>, sessionName: Option<string>)
    : (r: Option<StreamsRoute.CreateBody>)
    ensures r.None? <==> Blank(songUrl) || !Truthy(sessionId)
    ensures r.Some? ==> r.value == StreamsRoute.CreateBody(sessionId, Some(songUrl), sessionName)
  {
    if Trim(songUrl) == [] || !Truthy(sessionId) then None
    else Some(StreamsRoute.CreateBody(sessionId, Some(songUrl), sessionName))
  }

  /** A session without a name sends no `userName`, which the schema rejects. */
  lemma NamelessSessionIsRejected(db: Db, songUrl: string, sessionId: Option<UserId>,
                                  details: Option<StreamsRoute.VideoDetails>)
    requires AddSongRequest(songUrl, sessionId, None).Some?
    ensures StreamsRoute.AddStream(db, AddSongRequest(songUrl, sessionId, None).value, details)
         == Outcome(Response(StatusBadRequest, Message(StreamsRoute.ValidationError)), db)
  {
  }
}

=== FILE: seqs.dfy ===
/** Sequence helpers standing for `Array.prototype.filter`, `Array.prototype.find` and
    `Array.prototype.map`, with the fact that `map` carries a permutation of its input
    to a permutation of its output. */
module Seqs {
  import opened Js

  /** `s.filter(p)`: the elements satisfying `p`, in their original order. */
  function Filter<T(!new)>(s: seq<T>, p: T -> bool): (r: seq<T>)
    ensures |r| <= |s|
    ensures forall x :: x in r <==> x in s && p(x)
    ensures forall x :: multiset(r)[x] == if p(x) then multiset(s)[x] else 0
  {
    if s == [] then []
    else
      assert s == [s[0]] + s[1..];
      if p(s[0]) then [s[0]] + Filter(s[1..], p)
      else Filter(s[1..], p)
  }

  /** `s.map(f)` */
  function Map<T, U>(s: seq<T>, f: T -> U): (r: seq<U>)
    ensures |r| == |s| && forall i :: 0 <= i < |s| ==> r[i] == f(s[i])
  {
    seq(|s|, i requires 0 <= i < |s| => f(s[i]))
  }

  /** Deleting the element at `k` removes one occurrence of it. */
  lemma RemoveAt<T>(s: seq<T>, k: nat)
    requires k < |s|
    ensures s == s[..k] + [s[k]] + s[k + 1..]
    ensures multiset(s[..k] + s[k + 1..]) == multiset(s) - multiset{s[k]}
  {
    assert s == s[..k] + [s[k]] + s[k + 1..];
  }

  lemma MapAppend<T, U>(u: seq<T>, v: seq<T>, f: T -> U)
    ensures multiset(Map(u + v, f)) == multiset(Map(u, f)) + multiset(Map(v, f))
  {
    assert Map(u + v, f) == Map(u, f) + Map(v, f);
  }

  /** The images of `u + [x] + v` are those of `u + v` and `f(x)`. */
  lemma MapSplice<T, U>(u: seq<T>, x: T, v: seq<T>, f: T -> U)
    ensures multiset(Map(u + [x] + v, f)) == multiset(Map(u + v, f)) + multiset{f(x)}
  {
    MapAppend(u + [x], v, f);
    MapAppend(u, [x], f);
    MapAppend(u, v, f);
    assert Map([x], f) == [f(x)];
  }

  /** Mapping two orderings of the same elements gives two orderings of the same images. */
  lemma {:induction false} MapPermutation<T, U>(a: seq<T>, b: seq<T>, f: T -> U)
    requires multiset(a) == multiset(b)
    ensures multiset(Map(a, f)) == multiset(Map(b, f))
    decreases |a|
  {
    if a != [] {
      var x := a[0];
      assert x in multiset(b);
      var k :| 0 <= k < |b| && b[k] == x;
      RemoveAt(a, 0);
      RemoveAt(b, k);
      MapPermutation(a[..0] + a[1..], b[..k] + b[k + 1..], f);
      MapSplice(a[..0], x, a[1..], f);
      MapSplice(b[..k], x, b[k + 1..], f);
    }
  }

  /** The index of the first element satisfying `p`, as `findIndex`/`find` see it. */
  function FirstIndex<T>(s: seq<T>, p: T -> bool): (r: Option<nat>)
    ensures r.Some? ==> r.value < |s| && p(s[r.value])
    ensures r.Some? ==> forall j :: 0 <= j < r.value ==> !p(s[j])
    ensures r.None? <==> forall j :: 0 <= j < |s| ==> !p(s[j])
  {
    if s == [] then None
    else if p(s[0]) then Some(0)
    else
      match FirstIndex(s[1..], p)
      case None => None
      case Some(k) => Some(k + 1)
  }
}

=== FILE: server.dfy ===
/** The API as one state machine: each request is answered by its route against the
    shared database, one request at a time. The integrity of the database and the
    conservation of each creator's queue are proved over any run of requests. */
module Server {
  import opened Js
  import opened Store
  import opened Http
  import StreamsRoute
  import UpvoteRoute
  import DownvoteRoute
  import NextRoute
  import MyRoute
  import YouTubeUrl

  /** One request with what the route learns from the session, the body, the query and
      the metadata service. */
  datatype Request =
    | AddSong(body: StreamsRoute.CreateBody, details: Option<StreamsRoute.VideoDetails>)
    | ListQueue(caller: Option<UserId>, creatorId: Option<string>)
    | Upvote(session: Option<UserId>, streamId: Option<StreamId>)
    | Downvote(user: Option<UserId>, streamId: Option<StreamId>)
    | PlayNext(user: Option<UserId>, now: Time)
    | ListMine(sessionUser: Option<UserId>, creatorId: Option<string>)

  function Step(db: Db, req: Request): Outcome {
    match req
    case AddSong(body, details) => StreamsRoute.AddStream(db, body, details)
    case ListQueue(caller, creatorId) => Outcome(StreamsRoute.ListQueue(db, caller, creatorId), db)
    case Upvote(session, streamId) => UpvoteRoute.Upvote(db, session, streamId)
    case Downvote(user, streamId) => DownvoteRoute.Downvote(db, user, streamId)
    case PlayNext(user, now) => NextRoute.PlayNext(db, user, now)
    case ListMine(sessionUser, creatorId) => Outcome(MyRoute.MyStreams(db, sessionUser, creatorId), db)
  }

  /** The database after answering `reqs` in order. */
  function Run(db: Db, reqs: seq<Request>): Db
    decreases |reqs|
  {
    if reqs == [] then db else Run(Step(db, reqs[0]).db, reqs[1..])
  }

  /** Streams that survive into a longer table keep existing. */
  lemma ExistsInLonger(db: Db, db2: Db)
    requires |db.streams| <= |db2.streams|
    requires forall i :: 0 <= i < |db.streams| ==> db2.streams[i].id == db.streams[i].id
    ensures forall id :: StreamExists(db, id) ==> StreamExists(db2, id)
  {
    forall id | StreamExists(db, id) ensures StreamExists(db2, id) {
      var i :| 0 <= i < |db.streams| && db.streams[i].id == id;
      assert db2.streams[i].id == id;
    }
  }

  /** Appending a stream with the next id and a video its creator does not have yet
      keeps the integrity. */
  lemma AppendKeepsWf(db: Db, s: Stream, db2: Db)
    requires Wf(db)
    requires db2.streams == db.streams + [s] && db2.votes == db.votes && db2.current == db.current
    requires s.id == db.nextId && db2.nextId == db.nextId + 1
    requires forall i :: 0 <= i < |db.streams| ==>
      db.streams[i].userId != s.userId || db.streams[i].extractedId != s.extractedId
    ensures Wf(db2)
  {
    ExistsInLonger(db, db2);
  }

  lemma AddSongKeepsWf(db: Db, body: StreamsRoute.CreateBody, details: Option<StreamsRoute.VideoDetails>)
    requires Wf(db)
    ensures Wf(StreamsRoute.AddStream(db, body, details).db)
  {
    var o := StreamsRoute.AddStream(db, body, details);
    if o.response.status == StatusCreated {
      var n := |db.streams|;
      var s := o.db.streams[n];
      assert o.db.streams == o.db.streams[..n] + [s];
      assert !StreamsRoute.HasVideo(db, s.userId, s.extractedId);
      AppendKeepsWf(db, s, o.db);
    }
  }

  lemma UpvoteKeepsWf(db: Db, session: Option<UserId>, streamId: Option<StreamId>)
    requires Wf(db)
    ensures Wf(UpvoteRoute.Upvote(db, session, streamId).db)
  {
    var o := UpvoteRoute.Upvote(db, session, streamId);
    if o.response.status == StatusOk {
      var v := Vote(session.value, streamId.value);
      assert o.db.votes == db.votes + [v];
      forall i, j | 0 <= i < j < |o.db.votes| ensures o.db.votes[i] != o.db.votes[j] {
        if j == |db.votes| {
          assert o.db.votes[i] in db.votes;
        }
      }
    }
  }

  lemma DownvoteKeepsWf(db: Db, user: Option<UserId>, streamId: Option<StreamId>)
    requires Wf(db)
    ensures Wf(DownvoteRoute.Downvote(db, user, streamId).db)
  {
    var o := DownvoteRoute.Downvote(db, user, streamId);
    if o.response.status == StatusOk {
      WithoutKeepsUnique(db.votes, Vote(user.value, streamId.value));
    }
  }

  /** Rewriting columns other than the keys, and pointing current-stream rows at
      existing streams, keeps the integrity. */
  lemma SameKeysKeepsWf(db: Db, db2: Db)
    requires Wf(db)
    requires |db2.streams| == |db.streams| && db2.votes == db.votes && db2.nextId == db.nextId
    requires forall i :: 0 <= i < |db.streams| ==>
      && db2.streams[i].id == db.streams[i].id
      && db2.streams[i].userId == db.streams[i].userId
      && db2.streams[i].extractedId == db.streams[i].extractedId
    requires forall u :: u in db2.current ==> StreamExists(db, db2.current[u])
    ensures Wf(db2)
  {
    ExistsInLonger(db, db2);
  }

  lemma PlayNextKeepsWf(db: Db, user: Option<UserId>, now: Time)
    requires Wf(db)
    ensures Wf(NextRoute.PlayNext(db, user, now).db)
  {
    if user.Some? {
      var best := NextRoute.Best(db.streams, db.votes, user.value, |db.streams|);
      if best.Some? {
        var id := db.streams[best.value].id;
        var db2 := db.(current := db.current[user.value := id],
                       streams := NextRoute.MarkPlayed(db.streams, id, now));
        assert StreamExists(db, id);
        SameKeysKeepsWf(db, db2);
        assert NextRoute.PlayNext(db, user, now).db == db2;
      }
    }
  }

  /** Every request keeps the database's integrity. */
  lemma StepKeepsWf(db: Db, req: Request)
    requires Wf(db)
    ensures Wf(Step(db, req).db)
  {
    match req
    case AddSong(body, details) => AddSongKeepsWf(db, body, details);
    case ListQueue(_, _) =>
    case Upvote(session, streamId) => UpvoteKeepsWf(db, session, streamId);
    case Downvote(user, streamId) => DownvoteKeepsWf(db, user, streamId);
    case PlayNext(user, now) => PlayNextKeepsWf(db, user, now);
    case ListMine(_, _) =>
  }

  /** Every request keeps the stream rows it found, with their ids, and never un-plays
      a stream. */
  lemma StepEvolves(db: Db, req: Request)
    ensures Evolves(db, Step(db, req).db)
  {
    var o := Step(db, req);
    if req.AddSong? && o.response.status == StatusCreated {
      var n := |db.streams|;
      assert forall i :: 0 <= i < n ==> o.db.streams[i] == o.db.streams[..n][i];
    }
  }

  lemma {:induction false} RunKeepsWf(db: Db, reqs: seq<Request>)
    requires Wf(db)
    ensures Wf(Run(db, reqs))
    decreases |reqs|
  {
    if reqs != [] {
      StepKeepsWf(db, reqs[0]);
      RunKeepsWf(Step(db, reqs[0]).db, reqs[1..]);
    }
  }

  lemma {:induction false} RunEvolves(db: Db, reqs: seq<Request>)
    ensures Evolves(db, Run(db, reqs))
    decreases |reqs|
  {
    if reqs != [] {
      var next := Step(db, reqs[0]).db;
      StepEvolves(db, reqs[0]);
      RunEvolves(next, reqs[1..]);
      EvolvesTransitive(db, next, Run(next, reqs[1..]));
    }
  }

  /** The request adds a stream to `creator`'s queue. */
  predicate AddsFor(db: Db, req: Request, creator: UserId) {
    && req.AddSong? && req.body.creatorId == Some(creator)
    && Step(db, req).response.status == StatusCreated
  }

  /** The request plays the next stream of `creator`. */
  predicate PlaysFor(db: Db, req: Request, creator: UserId) {
    && req.PlayNext? && req.user == Some(creator)
    && Step(db, req).response.status == StatusOk
  }

  /** Queue entries added and streams played for `creator` over a run. */
  function Added(db: Db, reqs: seq<Request>, creator: UserId): nat
    decreases |reqs|
  {
    if reqs == [] then 0
    else (if AddsFor(db, reqs[0], creator) then 1 else 0) + Added(Step(db, reqs[0]).db, reqs[1..], creator)
  }

  function Played(db: Db, reqs: seq<Request>, creator: UserId): nat
    decreases |reqs|
  {
    if reqs == [] then 0
    else (if PlaysFor(db, reqs[0], creator) then 1 else 0) + Played(Step(db, reqs[0]).db, reqs[1..], creator)
  }

  lemma {:induction false} UnplayedCountAppend(streams: seq<Stream>, s: Stream, u: UserId)
    ensures NextRoute.UnplayedCount(streams + [s], u)
         == NextRoute.UnplayedCount(streams, u) + (if NextRoute.Candidate(s, u) then 1 else 0)
  {
    if streams != [] {
      assert (streams + [s])[1..] == streams[1..] + [s];
      UnplayedCountAppend(streams[1..], s, u);
    } else {
      assert streams + [s] == [s];
    }
  }

  /** A created stream joins its creator's queue and no other. */
  lemma AddSongCounts(db: Db, body: StreamsRoute.CreateBody, details: Option<StreamsRoute.VideoDetails>,
                      creator: UserId)
    ensures var o := StreamsRoute.AddStream(db, body, details);
      NextRoute.UnplayedCount(o.db.streams, creator)
        == NextRoute.UnplayedCount(db.streams, creator)
           + (if o.response.status == StatusCreated && body.creatorId == Some(creator) then 1 else 0)
  {
    var o := StreamsRoute.AddStream(db, body, details);
    if o.response.status == StatusCreated {
      var n := |db.streams|;
      assert o.db.streams == db.streams + [o.db.streams[n]];
      UnplayedCountAppend(db.streams, o.db.streams[n], creator);
    }
  }

  /** One request changes `creator`'s count of unplayed streams by the streams it adds
      to that queue minus the streams it plays from it. */
  lemma StepCountsQueue(db: Db, req: Request, creator: UserId)
    requires Wf(db)
    ensures NextRoute.UnplayedCount(Step(db, req).db.streams, creator)
              + (if PlaysFor(db, req, creator) then 1 else 0)
         == NextRoute.UnplayedCount(db.streams, creator)
              + (if AddsFor(db, req, creator) then 1 else 0)
  {
    match req
    case AddSong(body, details) =>
      AddSongCounts(db, body, details, creator);
    case PlayNext(user, now) =>
      if NextRoute.PlayNext(db, user, now).response.status == StatusOk {
        NextRoute.PlayNextConsumesOne(db, user.value, now, creator);
      }
    case ListQueue(_, _) =>
    case Upvote(_, _) =>
    case Downvote(_, _) =>
    case ListMine(_, _) =>
  }

  /** Over any run from a sound database, a creator's unplayed streams are exactly
      those there at the start plus those added, less those played: every played
      stream was in the queue, and PlayNext never plays more than the queue held. */
  lemma {:induction false} QueueIsConserved(db: Db, reqs: seq<Request>, creator: UserId)
    requires Wf(db)
    ensures NextRoute.UnplayedCount(Run(db, reqs).streams, creator) + Played(db, reqs, creator)
         == NextRoute.UnplayedCount(db.streams, creator) + Added(db, reqs, creator)
    ensures Played(db, reqs, creator) <= NextRoute.UnplayedCount(db.streams, creator) + Added(db, reqs, creator)
    decreases |reqs|
  {
    if reqs != [] {
      StepCountsQueue(db, reqs[0], creator);
      StepKeepsWf(db, reqs[0]);
      QueueIsConserved(Step(db, reqs[0]).db, reqs[1..], creator);
    }
  }

  /** An upvote followed by the same user's downvote of the same stream leaves the
      database exactly as it was. */
  lemma UpvoteThenDownvoteRestores(db: Db, user: UserId, sid: StreamId)
    requires UpvoteRoute.Upvote(db, Some(user), Some(sid)).response.status == StatusOk
    ensures var up := UpvoteRoute.Upvote(db, Some(user), Some(sid));
      var down := DownvoteRoute.Downvote(up.db, Some(user), Some(sid));
      down.response.status == StatusOk && down.db == db
  {
    var v := Vote(user, sid);
    WithoutAppend(db.votes, [v], v);
    WithoutAbsent(db.votes, v);
    assert Without([v], v) == [];
  }

  /** The vote routes are not idempotent: repeating a successful upvote fails with
      411 and writes nothing. */
  lemma UpvoteTwiceFails(db: Db, user: UserId, sid: StreamId)
    requires UpvoteRoute.Upvote(db, Some(user), Some(sid)).response.status == StatusOk
    ensures var again := UpvoteRoute.Upvote(UpvoteRoute.Upvote(db, Some(user), Some(sid)).db, Some(user), Some(sid));
      again.response == Response(StatusUnauthenticated, Message(UpvoteRoute.UpvoteFailed))
  {
  }

  /** Repeating a successful downvote fails with 411 and writes nothing. */
  lemma DownvoteTwiceFails(db: Db, user: UserId, sid: StreamId)
    requires DownvoteRoute.Downvote(db, Some(user), Some(sid)).response.status == StatusOk
    ensures var once := DownvoteRoute.Downvote(db, Some(user), Some(sid));
      var again := DownvoteRoute.Downvote(once.db, Some(user), Some(sid));
      again == Outcome(Response(StatusUnauthenticated, Message(UpvoteRoute.UpvoteFailed)), once.db)
  {
  }

  /** Adding the same link again, or any link to the same video, is answered 409 with
      the id of the stream just created. */
  lemma AddTwiceConflicts(db: Db, body: StreamsRoute.CreateBody, body2: StreamsRoute.CreateBody,
                          details: Option<StreamsRoute.VideoDetails>, details2: Option<StreamsRoute.VideoDetails>)
    requires Wf(db)
    requires StreamsRoute.AddStream(db, body, details).response.status == StatusCreated
    requires body2.creatorId == body.creatorId && body2.userName.Some? && body2.url.Some?
    requires YouTubeUrl.ExtractYouTubeId(body2.url.value) == YouTubeUrl.ExtractYouTubeId(body.url.value)
    ensures var first := StreamsRoute.AddStream(db, body, details);
      var second := StreamsRoute.AddStream(first.db, body2, details2);
      second == Outcome(Response(StatusConflict, AlreadyAdded(first.response.body.id)), first.db)
  {
    var first := StreamsRoute.AddStream(db, body, details);
    var n := |db.streams|;
    var s := first.db.streams[n];
    assert StreamsRoute.HasVideo(first.db, body.creatorId.value, s.extractedId);
    AddSongKeepsWf(db, body, details);
    var second := StreamsRoute.AddStream(first.db, body2, details2);
    var t :| t in first.db.streams && t.id == second.response.body.id && t.userId == body.creatorId.value
             && t.extractedId == s.extractedId;
    var k :| 0 <= k < |first.db.streams| && first.db.streams[k] == t;
    assert k == n;
  }
}

=== FILE: sorting.dfy ===
/** A stable sort by an integer key, the behaviour `Array.prototype.sort` must have
    (ECMA-262 2023 edition, section 23.1.3.30) for a consistent comparator
    `(a, b) => key(a) - key(b)`. A stable sort's output is unique, so this insertion
    sort stands for whatever algorithm the engine uses. */
module Sorting {

  predicate Sorted<T>(s: seq<T>, key: T -> int) {
    forall i, j :: 0 <= i < j < |s| ==> key(s[i]) <= key(s[j])
  }

  /** The elements of `s` whose key is `k`, in their order in `s`. */
  function WithKey<T>(s: seq<T>, key: T -> int, k: int): seq<T> {
    if s == [] then []
    else if key(s[0]) == k then [s[0]] + WithKey(s[1..], key, k)
    else WithKey(s[1..], key, k)
  }

  /** Places `x` in front of the first element whose key is not smaller. */
  function Insert<T>(x: T, s: seq<T>, key: T -> int): (r: seq<T>)
    requires Sorted(s, key)
    ensures Sorted(r, key)
    ensures multiset(r) == multiset(s) + multiset{x}
  {
    if s == [] || key(x) <= key(s[0]) then
      ConsSorted(x, s, key);
      [x] + s
    else
      var t := Insert(x, s[1..], key);
      RestAboveFirst(x, s, t, key);
      ConsSorted(s[0], t, key);
      assert s == [s[0]] + s[1..];
      [s[0]] + t
  }

  lemma ConsSorted<T>(y: T, t: seq<T>, key: T -> int)
    requires Sorted(t, key) && (t == [] || key(y) <= key(t[0]))
    ensures Sorted([y] + t, key)
  {
    var r := [y] + t;
    forall i, j | 0 <= i < j < |r| ensures key(r[i]) <= key(r[j]) {
      assert r[j] == t[j - 1];
      if i > 0 {
        assert r[i] == t[i - 1];
      } else if j > 1 {
        assert key(t[0]) <= key(t[j - 1]);
      }
    }
  }

  /** What inserting `x` behind the head of `s` yields starts no lower than the head. */
  lemma RestAboveFirst<T>(x: T, s: seq<T>, t: seq<T>, key: T -> int)
    requires Sorted(s, key) && |s| > 0 && key(s[0]) < key(x)
    requires multiset(t) == multiset(s[1..]) + multiset{x}
    ensures t == [] || key(s[0]) <= key(t[0])
  {
    if t != [] && t[0] != x {
      assert t[0] in multiset(t);
      assert t[0] in s[1..];
      var k :| 0 <= k < |s[1..]| && s[1..][k] == t[0];
      assert s[k + 1] == t[0];
    }
  }

  /** Inserting `x` puts it in front of the elements sharing its key and leaves the
      order of every key class untouched. */
  lemma {:induction false} InsertKeepsKeyOrder<T>(x: T, s: seq<T>, key: T -> int, k: int)
    requires Sorted(s, key)
    ensures WithKey(Insert(x, s, key), key, k)
         == if k == key(x) then [x] + WithKey(s, key, k) else WithKey(s, key, k)
  {
    if s == [] || key(x) <= key(s[0]) {
      assert ([x] + s)[1..] == s;
    } else {
      var t := Insert(x, s[1..], key);
      InsertKeepsKeyOrder(x, s[1..], key, k);
      assert ([s[0]] + t)[1..] == t;
      if k == key(x) {
        assert key(s[0]) != k;
      }
    }
  }

  /** Sorts `s` by ascending key, keeping equal-key elements in their original order. */
  function SortBy<T>(s: seq<T>, key: T -> int): (r: seq<T>)
    ensures Sorted(r, key)
    ensures multiset(r) == multiset(s)
  {
    if s == [] then []
    else
      assert s == [s[0]] + s[1..];
      Insert(s[0], SortBy(s[1..], key), key)
  }

  /** Stability: within every key class the sorted sequence keeps the input order. */
  lemma {:induction false} SortByIsStable<T>(s: seq<T>, key: T -> int, k: int)
    ensures WithKey(SortBy(s, key), key, k) == WithKey(s, key, k)
  {
    if s != [] {
      SortByIsStable(s[1..], key, k);
      InsertKeepsKeyOrder(s[0], SortBy(s[1..], key), key, k);
    }
  }
}

=== FILE: store.dfy ===
/** The database the routes share, as plain values: the Stream table, the Upvote
    table (unique on the pair `userId_streamId`), and the CurrentStream table
    (one row per creator). Tables are sequences, read in storage order; the database
    promises no order for queries without `orderBy`, and no contract depends on one. */
module Store {
  import opened Js

  /** NextAuth's user id (the session's `user.id` or the id of the user row found by email). */
  type UserId = string
  /** Prisma's generated stream id; the model draws fresh ids from a counter. */
  type StreamId = nat
  /** A `Date`, as milliseconds. */
  type Time = int

  datatype Stream = Stream(
    id: StreamId,
    userId: UserId,          // the creator whose queue the stream is in
    url: string,
    extractedId: string,     // the YouTube video id
    title: string,
    smallImg: string,
    bigImg: string,
    addedBy: string,
    played: bool,
    playedTs: Option<Time>)

  datatype Vote = Vote(userId: UserId, streamId: StreamId)

  datatype Db = Db(
    streams: seq<Stream>,
    votes: seq<Vote>,
    current: map<UserId, StreamId>,   // CurrentStream: creator -> stream now playing
    nextId: StreamId)

  predicate StreamExists(db: Db, id: StreamId) {
    exists i :: 0 <= i < |db.streams| && db.streams[i].id == id
  }

  /** `_count.upvotes`: the number of vote rows for `sid`. */
  function VoteCount(votes: seq<Vote>, sid: StreamId): nat {
    if votes == [] then 0
    else (if votes[0].streamId == sid then 1 else 0) + VoteCount(votes[1..], sid)
  }

  /** Every vote row is for a distinct (user, stream) pair. */
  predicate NoDuplicateVotes(votes: seq<Vote>) {
    forall i, j :: 0 <= i < j < |votes| ==> votes[i] != votes[j]
  }

  /** The vote table with the row for `v` deleted. */
  function Without(votes: seq<Vote>, v: Vote): (r: seq<Vote>)
    ensures forall w :: w in r <==> w in votes && w != v
  {
    if votes == [] then []
    else if votes[0] == v then Without(votes[1..], v)
    else [votes[0]] + Without(votes[1..], v)
  }

  /** The integrity the routes keep, one request at a time: unique stream ids below the
      counter, at most one stream per (creator, video), unique vote pairs, and foreign
      keys from votes and current-stream rows to existing streams. The database schema
      enforces the vote pairs and the keys; one stream per (creator, video) rests only
      on the add route's check before its `create`, which concurrent requests can both
      pass. */
  predicate Wf(db: Db) {
    && (forall i :: 0 <= i < |db.streams| ==> db.streams[i].id < db.nextId)
    && (forall i, j :: 0 <= i < j < |db.streams| ==> db.streams[i].id != db.streams[j].id)
    && (forall i, j :: 0 <= i < j < |db.streams| ==>
          db.streams[i].userId != db.streams[j].userId || db.streams[i].extractedId != db.streams[j].extractedId)
    && NoDuplicateVotes(db.votes)
    && (forall v :: v in db.votes ==> StreamExists(db, v.streamId))
    && (forall u :: u in db.current ==> StreamExists(db, db.current[u]))
  }

  /** `db2` is a later state of `db`: no stream row disappears or changes id, and a
      stream that was played stays played. */
  predicate Evolves(db: Db, db2: Db) {
    && |db.streams| <= |db2.streams|
    && forall i :: 0 <= i < |db.streams| ==>
         db2.streams[i].id == db.streams[i].id && (db.streams[i].played ==> db2.streams[i].played)
  }

  lemma EvolvesTransitive(db1: Db, db2: Db, db3: Db)
    requires Evolves(db1, db2) && Evolves(db2, db3)
    ensures Evolves(db1, db3)
  {
  }

  lemma {:induction false} VoteCountAppend(a: seq<Vote>, b: seq<Vote>, sid: StreamId)
    ensures VoteCount(a + b, sid) == VoteCount(a, sid) + VoteCount(b, sid)
  {
    if a != [] {
      var ab := a + b;
      assert ab != [] && ab[0] == a[0] && ab[1..] == a[1..] + b;
      VoteCountAppend(a[1..], b, sid);
      assert VoteCount(ab, sid) == (if a[0].streamId == sid then 1 else 0) + VoteCount(ab[1..], sid);
    } else {
      assert a + b == b;
    }
  }

  /** A stream's count is positive exactly when some vote row names it. */
  lemma {:induction false} CountPositiveIffVoted(votes: seq<Vote>, sid: StreamId)
    ensures VoteCount(votes, sid) > 0 <==> exists v :: v in votes && v.streamId == sid
  {
    if votes != [] {
      CountPositiveIffVoted(votes[1..], sid);
      assert forall v :: v in votes <==> v == votes[0] || v in votes[1..];
    }
  }

  /** Deleting a row that is not there leaves the table as it was. */
  lemma {:induction false} WithoutAbsent(votes: seq<Vote>, v: Vote)
    requires v !in votes
    ensures Without(votes, v) == votes
  {
    if votes != [] {
      WithoutAbsent(votes[1..], v);
      assert votes == [votes[0]] + votes[1..];
    }
  }

  lemma {:induction false} WithoutAppend(a: seq<Vote>, b: seq<Vote>, v: Vote)
    ensures Without(a + b, v) == Without(a, v) + Without(b, v)
  {
    if a != [] {
      var ab := a + b;
      assert ab != [] && ab[0] == a[0] && ab[1..] == a[1..] + b;
      WithoutAppend(a[1..], b, v);
      if a[0] != v {
        assert Without(ab, v) == [a[0]] + Without(ab[1..], v);
        assert [a[0]] + (Without(a[1..], v) + Without(b, v)) == ([a[0]] + Without(a[1..], v)) + Without(b, v);
      } else {
        assert Without(ab, v) == Without(ab[1..], v);
      }
    } else {
      assert a + b == b;
    }
  }

  /** With unique pairs, deleting the row of a present pair lowers that stream's
      count by one and leaves every other stream's count alone. */
  lemma {:induction false} VoteCountWithout(votes: seq<Vote>, v: Vote, sid: StreamId)
    requires NoDuplicateVotes(votes) && v in votes
    ensures VoteCount(Without(votes, v), sid)
         == if sid == v.streamId then VoteCount(votes, sid) - 1 else VoteCount(votes, sid)
  {
    if votes[0] == v {
      WithoutAbsent(votes[1..], v);
    } else {
      VoteCountWithout(votes[1..], v, sid);
    }
  }

  /** Deleting a row keeps the pairs unique. */
  lemma {:induction false} WithoutKeepsUnique(votes: seq<Vote>, v: Vote)
    requires NoDuplicateVotes(votes)
    ensures NoDuplicateVotes(Without(votes, v))
  {
    if votes != [] {
      WithoutKeepsUnique(votes[1..], v);
      var rest := Without(votes[1..], v);
      if votes[0] != v {
        var r := [votes[0]] + rest;
        forall i, j | 0 <= i < j < |r| ensures r[i] != r[j] {
          if i == 0 {
            assert r[j] in rest;
          } else {
            assert r[i] == rest[i - 1] && r[j] == rest[j - 1];
          }
        }
      }
    }
  }
}

=== FILE: stream_view.dfy ===
/** `components/StreamView.tsx`: the page state of a creator's room and
    `refreshStream`, which reloads the queue from GET /api/streams and shows it sorted
    by votes, most first. */
module StreamView {
  import opened Js
  import opened Store
  import opened Http
  import Seqs
  import Sorting
  import StreamsRoute

  /** A queue entry as the client holds it. The server always sends both fields, but
      the vote reconciliation can overwrite them with `undefined`. */
  datatype ClientEntry = ClientEntry(stream: Stream, upvotes: Option<int>, hasUpvoted: Option<bool>)

  /** The component's `streams`, `currentStream` and `isLoading` state. */
  datatype View = View(streams: seq<ClientEntry>, current: Option<Stream>, loading: bool)

  function FromServer(e: Entry): ClientEntry {
    ClientEntry(e.stream, Some(e.upvotes), Some(e.hasUpvoted))
  }

  function FromServerAll(entries: seq<Entry>): (r: seq<ClientEntry>)
    ensures |r| == |entries| && forall i :: 0 <= i < |r| ==> r[i] == FromServer(entries[i])
  {
    seq(|entries|, i requires 0 <= i < |entries| => FromServer(entries[i]))
  }

  /** The stream of each shown entry, in order: `Http.StreamsOf` for the client's
      entries, which may have lost their counts. `ShownStreamsOfServer` ties the two. */
  function ShownStreams(shown: seq<ClientEntry>): (r: seq<Stream>)
    ensures |r| == |shown| && forall i :: 0 <= i < |shown| ==> r[i] == shown[i].stream
  {
    Seqs.Map(shown, (e: ClientEntry) => e.stream)
  }

  /** Converting a listing keeps its streams. */
  lemma ShownStreamsOfServer(entries: seq<Entry>)
    ensures ShownStreams(FromServerAll(entries)) == StreamsOf(entries)
  {
  }

  /** `upvotes || 0` */
  function ShownVotes(e: ClientEntry): int {
    OrZero(e.upvotes)
  }

  /** The comparator `(a, b) => (b.upvotes || 0) - (a.upvotes || 0)` orders by this key
      ascending. */
  function VoteKey(e: ClientEntry): int {
    -ShownVotes(e)
  }

  /** The stable sort with that comparator: a permutation with the votes non-increasing,
      entries with equal votes kept in the server's order. */
  function SortByVotes(entries: seq<ClientEntry>): (r: seq<ClientEntry>)
    ensures multiset(r) == multiset(entries)
    ensures forall i, j :: 0 <= i < j < |r| ==> ShownVotes(r[j]) <= ShownVotes(r[i])
  {
    var r := Sorting.SortBy(entries, VoteKey);
    assert forall i, j :: 0 <= i < j < |r| ==> VoteKey(r[i]) <= VoteKey(r[j]);
    r
  }

  /** Entries with the same shown votes keep their relative order. */
  lemma SortByVotesIsStable(entries: seq<ClientEntry>, votes: int)
    ensures Sorting.WithKey(SortByVotes(entries), VoteKey, -votes) == Sorting.WithKey(entries, VoteKey, -votes)
  {
    Sorting.SortByIsStable(entries, VoteKey, -votes);
  }

  /** axios resolves for a 2xx status; spreading `res.data.streams` throws unless the
      body is a queue listing. */
  predicate Loaded(reply: Option<Response>) {
    reply.Some? && 200 <= reply.value.status < 300 && reply.value.body.QueueData?
  }

  /** `res.data.activeStream?.stream || null` */
  function ActiveOf(active: Option<ActiveStream>): Option<Stream> {
    if active.Some? then active.value.stream else None
  }

  /** `creatorId || session?.user?.id` */
  function RefreshTarget(creatorId: Option<string>, sessionId: Option<string>): Option<string> {
    if Truthy(creatorId) then creatorId else sessionId
  }

  /** `refreshStream`. `reply` is what GET /api/streams?creatorId=<target> answered,
      None when the request did not complete. `isLoading` is true only while the
      request is outstanding, so it is false in every resulting view. */
  function RefreshStream(view: View, creatorId: Option<string>, sessionId: Option<string>,
                         reply: Option<Response>): (r: View)
    // nobody to load for: the state is untouched
    ensures !Truthy(creatorId) && !Truthy(sessionId) ==> r == view
    ensures Truthy(RefreshTarget(creatorId, sessionId)) ==> !r.loading
    // a failed load keeps the list and the current stream
    ensures Truthy(RefreshTarget(creatorId, sessionId)) && !Loaded(reply) ==> r == view.(loading := false)
    ensures Truthy(RefreshTarget(creatorId, sessionId)) && Loaded(reply) ==>
      && multiset(r.streams) == multiset(FromServerAll(reply.value.body.streams))
      && (forall i, j :: 0 <= i < j < |r.streams| ==> ShownVotes(r.streams[j]) <= ShownVotes(r.streams[i]))
      && (r.current.Some? <==> reply.value.body.activeStream.Some? && reply.value.body.activeStream.value.stream.Some?)
      && (r.current.Some? ==> r.current.value == reply.value.body.activeStream.value.stream.value)
  {
    var target := RefreshTarget(creatorId, sessionId);
    if !Truthy(target) then view
    else if !Loaded(reply) then view.(loading := false)
    else
      var body := reply.value.body;
      View(SortByVotes(FromServerAll(body.streams)), ActiveOf(body.activeStream), false)
  }

  /** Refreshing against the server shows exactly the target creator's unplayed streams,
      each as many times as the table holds it, each with its vote count and whether
      the viewer voted for it, most votes first, and the creator's current stream.
      Without a signed-in user the load fails and the shown list stays as it was. */
  lemma RefreshShowsQueue(db: Db, view: View, creatorId: Option<string>, sessionId: Option<string>,
                          caller: Option<UserId>)
    requires Truthy(RefreshTarget(creatorId, sessionId))
    ensures var target := RefreshTarget(creatorId, sessionId);
      var r := RefreshStream(view, creatorId, sessionId, Some(StreamsRoute.ListQueue(db, caller, target)));
      && (caller.None? ==> r.streams == view.streams && r.current == view.current)
      && (caller.Some? ==>
            && (forall e :: e in r.streams ==>
                  && e.stream in db.streams && e.stream.userId == target.value && !e.stream.played
                  && e.upvotes == Some(VoteCount(db.votes, e.stream.id))
                  && (e.hasUpvoted == Some(true) <==> Vote(caller.value, e.stream.id) in db.votes))
            && (forall s :: s in db.streams && s.userId == target.value && !s.played ==>
                  exists e :: e in r.streams && e.stream == s)
            && (forall s :: multiset(ShownStreams(r.streams))[s] ==
                  if s.userId == target.value && !s.played then multiset(db.streams)[s] else 0)
            && (forall i, j :: 0 <= i < j < |r.streams| ==> ShownVotes(r.streams[j]) <= ShownVotes(r.streams[i]))
            // the creator's current stream is shown exactly when its row points at a stream
            && (r.current.Some? <==> target.value in db.current && StreamExists(db, db.current[target.value]))
            && (r.current.Some? ==> r.current.value in db.streams && target.value in db.current
                                    && r.current.value.id == db.current[target.value]))
  {
    var target := RefreshTarget(creatorId, sessionId);
    var reply := StreamsRoute.ListQueue(db, caller, target);
    if caller.Some? {
      var r := RefreshStream(view, creatorId, sessionId, Some(reply));
      ShowsQueued(db, reply.body.streams, target.value, caller.value, r.streams);
    }
  }

  /** Any order of the converted listing shows the listed streams and only them, as
      often as they are listed, with the listing's counts and votes. */
  lemma ShowsQueued(db: Db, entries: seq<Entry>, target: UserId, caller: UserId, shown: seq<ClientEntry>)
    requires forall i :: 0 <= i < |entries| ==>
      && entries[i].stream in db.streams && StreamsRoute.InQueue(target, entries[i].stream)
      && entries[i].upvotes == VoteCount(db.votes, entries[i].stream.id)
      && (entries[i].hasUpvoted <==> Vote(caller, entries[i].stream.id) in db.votes)
    requires forall s :: s in db.streams && StreamsRoute.InQueue(target, s) ==>
      exists i :: 0 <= i < |entries| && entries[i].stream == s
    requires forall s :: multiset(StreamsOf(entries))[s] ==
                         if StreamsRoute.InQueue(target, s) then multiset(db.streams)[s] else 0
    requires multiset(shown) == multiset(FromServerAll(entries))
    ensures forall e :: e in shown ==>
      && e.stream in db.streams && e.stream.userId == target && !e.stream.played
      && e.upvotes == Some(VoteCount(db.votes, e.stream.id))
      && (e.hasUpvoted == Some(true) <==> Vote(caller, e.stream.id) in db.votes)
    ensures forall s :: s in db.streams && s.userId == target && !s.played ==>
      exists e :: e in shown && e.stream == s
    ensures forall s :: multiset(ShownStreams(shown))[s] ==
                        if s.userId == target && !s.played then multiset(db.streams)[s] else 0
  {
    ShownAreServerEntries(shown, entries);
    var stream := (e: ClientEntry) => e.stream;
    Seqs.MapPermutation(shown, FromServerAll(entries), stream);
    assert Seqs.Map(shown, stream) == ShownStreams(shown);
    assert Seqs.Map(FromServerAll(entries), stream) == ShownStreams(FromServerAll(entries));
    ShownStreamsOfServer(entries);
    forall s | s in db.streams && s.userId == target && !s.played
      ensures exists e :: e in shown && e.stream == s
    {
      assert StreamsRoute.InQueue(target, s);
      var i :| 0 <= i < |entries| && entries[i].stream == s;
      assert FromServer(entries[i]) in shown;
    }
  }

  /** A permutation of the converted entries holds exactly the converted entries. */
  lemma ShownAreServerEntries(shown: seq<ClientEntry>, entries: seq<Entry>)
    requires multiset(shown) == multiset(FromServerAll(entries))
    ensures forall e :: e in shown ==> exists i :: 0 <= i < |entries| && e == FromServer(entries[i])
    ensures forall i :: 0 <= i < |entries| ==> FromServer(entries[i]) in shown
  {
    var all := FromServerAll(entries);
    forall e | e in shown ensures exists i :: 0 <= i < |entries| && e == FromServer(entries[i]) {
      assert e in multiset(all);
      var i :| 0 <= i < |all| && all[i] == e;
    }
    forall i | 0 <= i < |entries| ensures FromServer(entries[i]) in shown {
      assert all[i] in multiset(shown);
    }
  }
}

=== FILE: streams_route.dfy ===
/** `app/api/streams/route.ts`: POST adds a video to a creator's queue, GET lists the
    creator's unplayed streams for the signed-in caller. */
module StreamsRoute {
  import opened Js
  import opened Store
  import opened Http
  import opened YouTubeUrl
  import Seqs
  import Sorting

  /** The POST body after `CreateStreamSchema`: a field is None when it is missing or
      is not a string. */
  datatype CreateBody = CreateBody(creatorId: Option<string>, url: Option<string>, userName: Option<string>)

  /** One entry of ytdl's `videoDetails.thumbnails`. */
  datatype Thumbnail = Thumbnail(url: string, width: Option<int>)

  /** What `ytdl.getInfo` reports; both fields may be undefined. */
  datatype VideoDetails = VideoDetails(title: Option<string>, thumbnails: Option<seq<Thumbnail>>)

  datatype Images = Images(small: Thumbnail, big: Thumbnail)

  const ValidationError: string := "Validation error"
  const InvalidUrl: string := "Invalid YouTube URL. Please provide a valid YouTube link."
  const AddFailed: string := "Error while adding stream. Please try again."
  const UnknownTitle: string := "Unknown title"
  const CreatorIdRequired: string := "Creator ID is required"

  /** `a.width || 0` */
  function Width(t: Thumbnail): int {
    OrZero(t.width)
  }

  /** After sorting by ascending width, `bigImg` is the last thumbnail and `smallImg` the
      one before it, or the last one too when there is only one. With no thumbnails
      `thumbnails[thumbnails.length - 1].url` throws, which is None here. */
  function PickImages(thumbnails: seq<Thumbnail>): (r: Option<Images>)
    ensures r.Some? <==> |thumbnails| > 0
    ensures r.Some? ==> r.value.big in thumbnails && forall t :: t in thumbnails ==> Width(t) <= Width(r.value.big)
    ensures r.Some? ==> r.value.small in thumbnails && Width(r.value.small) <= Width(r.value.big)
    ensures r.Some? && |thumbnails| == 1 ==> r.value.small == r.value.big
    ensures r.Some? && |thumbnails| >= 2 ==>
      && multiset{r.value.small, r.value.big} <= multiset(thumbnails)
      && forall t :: t in multiset(thumbnails) - multiset{r.value.big} ==> Width(t) <= Width(r.value.small)
  {
    var sorted := Sorting.SortBy(thumbnails, Width);
    var n := |sorted|;
    if n == 0 then None
    else
      LastIsWidest(sorted, thumbnails);
      if n > 1 then
        SecondLastIsWidestOfRest(sorted, thumbnails);
        Some(Images(sorted[n - 2], sorted[n - 1]))
      else
        Some(Images(sorted[n - 1], sorted[n - 1]))
  }

  lemma LastIsWidest(sorted: seq<Thumbnail>, thumbnails: seq<Thumbnail>)
    requires Sorting.Sorted(sorted, Width) && multiset(sorted) == multiset(thumbnails) && |sorted| > 0
    ensures sorted[|sorted| - 1] in thumbnails
    ensures forall t :: t in thumbnails ==> Width(t) <= Width(sorted[|sorted| - 1])
  {
    assert sorted[|sorted| - 1] in multiset(sorted);
    forall t | t in thumbnails ensures Width(t) <= Width(sorted[|sorted| - 1]) {
      assert t in multiset(sorted);
      var k :| 0 <= k < |sorted| && sorted[k] == t;
    }
  }

  lemma SecondLastIsWidestOfRest(sorted: seq<Thumbnail>, thumbnails: seq<Thumbnail>)
    requires Sorting.Sorted(sorted, Width) && multiset(sorted) == multiset(thumbnails) && |sorted| > 1
    ensures var n := |sorted|;
      && sorted[n - 2] in thumbnails
      && multiset{sorted[n - 2], sorted[n - 1]} <= multiset(thumbnails)
      && forall t :: t in multiset(thumbnails) - multiset{sorted[n - 1]} ==> Width(t) <= Width(sorted[n - 2])
  {
    LastTwo(sorted);
    RestBelowSecondLast(sorted);
  }

  /** The last two elements of a sequence, and what remains without the last. */
  lemma LastTwo<T>(s: seq<T>)
    requires |s| > 1
    ensures s[|s| - 2] in multiset(s)
    ensures multiset{s[|s| - 2], s[|s| - 1]} <= multiset(s)
    ensures multiset(s) - multiset{s[|s| - 1]} == multiset(s[..|s| - 1])
  {
    var n := |s|;
    assert s == s[..n - 2] + [s[n - 2], s[n - 1]];
    assert s[..n - 1] == s[..n - 2] + [s[n - 2]];
  }

  lemma RestBelowSecondLast(sorted: seq<Thumbnail>)
    requires Sorting.Sorted(sorted, Width) && |sorted| > 1
    ensures forall t :: t in multiset(sorted[..|sorted| - 1]) ==> Width(t) <= Width(sorted[|sorted| - 2])
  {
    var rest := sorted[..|sorted| - 1];
    forall t | t in multiset(rest) ensures Width(t) <= Width(sorted[|sorted| - 2]) {
      var k :| 0 <= k < |rest| && rest[k] == t;
      assert sorted[k] == t;
    }
  }

  /** A stream of `creator` already has video `vid`, played or not. */
  predicate HasVideo(db: Db, creator: UserId, vid: string) {
    exists i :: 0 <= i < |db.streams| && db.streams[i].userId == creator && db.streams[i].extractedId == vid
  }

  predicate ValidBody(body: CreateBody) {
    body.creatorId.Some? && body.url.Some? && body.userName.Some?
  }

  /** The duplicate check `findFirst({where: {userId, extractedId}})`. */
  function FindVideo(db: Db, creator: UserId, vid: string): (r: Option<Stream>)
    ensures r.Some? ==> r.value in db.streams && r.value.userId == creator && r.value.extractedId == vid
    ensures r.None? <==> !HasVideo(db, creator, vid)
  {
    match Seqs.FirstIndex(db.streams, (s: Stream) => s.userId == creator && s.extractedId == vid)
    case None => None
    case Some(i) => Some(db.streams[i])
  }

  /** POST /api/streams. `details` is what `ytdl.getInfo` yields for the parsed id, None
      when it throws. The request is one atomic step. */
  function AddStream(db: Db, body: CreateBody, details: Option<VideoDetails>): (o: Outcome)
    // a schema failure: 400, nothing written
    ensures !ValidBody(body) ==> o == Outcome(Response(StatusBadRequest, Message(ValidationError)), db)
    // a link the regex rejects: 400, nothing written
    ensures ValidBody(body) && ExtractYouTubeId(body.url.value).None? ==>
      o == Outcome(Response(StatusBadRequest, Message(InvalidUrl)), db)
    // the creator already has the video, even a played one: 409 with its id, nothing written
    ensures ValidBody(body) && ExtractYouTubeId(body.url.value).Some?
            && HasVideo(db, body.creatorId.value, ExtractYouTubeId(body.url.value).value) ==>
      && o.db == db && o.response.status == StatusConflict && o.response.body.AlreadyAdded?
      && exists s :: s in db.streams && s.id == o.response.body.id && s.userId == body.creatorId.value
                     && s.extractedId == ExtractYouTubeId(body.url.value).value
    // a 409 is only ever about a video the creator already has
    ensures o.response.status == StatusConflict ==>
      ValidBody(body) && ExtractYouTubeId(body.url.value).Some?
      && HasVideo(db, body.creatorId.value, ExtractYouTubeId(body.url.value).value)
    // metadata lookup failed or gave no thumbnails: 500, nothing written
    ensures ValidBody(body) && ExtractYouTubeId(body.url.value).Some?
            && !HasVideo(db, body.creatorId.value, ExtractYouTubeId(body.url.value).value)
            && (details.None? || details.value.thumbnails.None? || |details.value.thumbnails.value| == 0) ==>
      o == Outcome(Response(StatusServerError, Message(AddFailed)), db)
    ensures o.response.status == StatusServerError ==> o.db == db && o.response.body == Message(AddFailed)
    ensures o.response.status == StatusCreated <==>
      && ValidBody(body) && ExtractYouTubeId(body.url.value).Some?
      && !HasVideo(db, body.creatorId.value, ExtractYouTubeId(body.url.value).value)
      && details.Some? && details.value.thumbnails.Some? && |details.value.thumbnails.value| > 0
    ensures o.response.status in {StatusBadRequest, StatusConflict, StatusServerError, StatusCreated}
    // success: exactly one new, unplayed stream with a fresh id, carrying the request's data
    ensures o.response.status == StatusCreated ==>
      && |o.db.streams| == |db.streams| + 1 && o.db.streams[..|db.streams|] == db.streams
      && var s := o.db.streams[|db.streams|];
      && o.response.body == StreamAdded(s.id)
      && s.id == db.nextId && o.db.nextId == db.nextId + 1
      && s.userId == body.creatorId.value && s.url == body.url.value && s.addedBy == body.userName.value
      && Some(s.extractedId) == ExtractYouTubeId(body.url.value)
      && !s.played && s.playedTs.None?
      && s.title == (if Truthy(details.value.title) then details.value.title.value else UnknownTitle)
      && PickImages(details.value.thumbnails.value).Some?
      && s.smallImg == PickImages(details.value.thumbnails.value).value.small.url
      && s.bigImg == PickImages(details.value.thumbnails.value).value.big.url
      && o.db.votes == db.votes && o.db.current == db.current
  {
    if !ValidBody(body) then
      Outcome(Response(StatusBadRequest, Message(ValidationError)), db)
    else
      match ExtractYouTubeId(body.url.value)
      case None => Outcome(Response(StatusBadRequest, Message(InvalidUrl)), db)
      case Some(vid) =>
        match FindVideo(db, body.creatorId.value, vid)
        case Some(existing) => Outcome(Response(StatusConflict, AlreadyAdded(existing.id)), db)
        case None =>
          if details.None? then Outcome(Response(StatusServerError, Message(AddFailed)), db)
          else
            var thumbnails := if details.value.thumbnails.Some? then details.value.thumbnails.value else [];
            var title := if Truthy(details.value.title) then details.value.title.value else UnknownTitle;
            match PickImages(thumbnails)
            case None => Outcome(Response(StatusServerError, Message(AddFailed)), db)
            case Some(images) =>
              var s := Stream(db.nextId, body.creatorId.value, body.url.value, vid, title,
                              images.small.url, images.big.url, body.userName.value, false, None);
              assert (db.streams + [s])[..|db.streams|] == db.streams;
              Outcome(Response(StatusCreated, StreamAdded(s.id)),
                      db.(streams := db.streams + [s], nextId := db.nextId + 1))
  }

  /** The unplayed streams of `creator`. */
  predicate InQueue(creator: UserId, s: Stream) {
    s.userId == creator && !s.played
  }

  /** GET /api/streams?creatorId=…; `caller` is the user found for the session. The
      user is checked before the query parameter. */
  function ListQueue(db: Db, caller: Option<UserId>, creatorId: Option<string>): (r: Response)
    ensures caller.None? ==> r == Response(StatusUnauthenticated, Message(Unauthenticated))
    ensures caller.Some? && !Truthy(creatorId) ==> r == Response(StatusBadRequest, Message(CreatorIdRequired))
    ensures caller.Some? && Truthy(creatorId) ==>
      && r.status == StatusOk && r.body.QueueData?
      // exactly the creator's unplayed streams, with counts and the caller's own votes
      && ListsExactly(r.body.streams, db.streams, (s: Stream) => InQueue(creatorId.value, s), db.votes, caller)
      && (forall i :: 0 <= i < |r.body.streams| ==>
            (r.body.streams[i].hasUpvoted <==> Vote(caller.value, r.body.streams[i].stream.id) in db.votes))
      // the creator's current stream, if a row exists
      && (r.body.activeStream.Some? <==> creatorId.value in db.current)
      && (r.body.activeStream.Some? ==>
            && r.body.activeStream.value.streamId == db.current[creatorId.value]
            && (r.body.activeStream.value.stream.Some? <==> StreamExists(db, db.current[creatorId.value]))
            && (r.body.activeStream.value.stream.Some? ==>
                  && r.body.activeStream.value.stream.value in db.streams
                  && r.body.activeStream.value.stream.value.id == db.current[creatorId.value]))
  {
    if caller.None? then Response(StatusUnauthenticated, Message(Unauthenticated))
    else if !Truthy(creatorId) then Response(StatusBadRequest, Message(CreatorIdRequired))
    else
      var creator := creatorId.value;
      var keep := (s: Stream) => InQueue(creator, s);
      var entries := Project(Seqs.Filter(db.streams, keep), db.votes, caller);
      ProjectFilterListsExactly(db.streams, keep, db.votes, caller);
      var active := if creator in db.current
                    then Some(ActiveStream(db.current[creator], FindStream(db, db.current[creator])))
                    else None;
      Response(StatusOk, QueueData(entries, active))
  }
}

=== FILE: upvote_route.dfy ===
/** `app/api/streams/upvote/route.ts`: POST inserts the caller's vote row. The table is
    unique on (userId, streamId) and its streamId references a stream, so a repeated
    vote or a vote for a missing stream makes `create` throw, which the route answers
    with 411; the route is not idempotent. It does not look at `played`. */
module UpvoteRoute {
  import opened Js
  import opened Store
  import opened Http

  const UpvoteFailed: string := "Error while upvote"

  /** Adding one row raises the count of its stream by one and no other. */
  lemma VoteCountAppendOne(votes: seq<Vote>, v: Vote)
    ensures forall sid :: VoteCount(votes + [v], sid) == VoteCount(votes, sid) + (if v.streamId == sid then 1 else 0)
  {
    forall sid ensures VoteCount(votes + [v], sid) == VoteCount(votes, sid) + (if v.streamId == sid then 1 else 0) {
      VoteCountAppend(votes, [v], sid);
      assert VoteCount([v], sid) == (if v.streamId == sid then 1 else 0) + VoteCount([v][1..], sid);
    }
  }

  /** POST /api/streams/upvote. `session` is the session's user id, None without a
      session; `streamId` is None when the body has no string `streamId`. */
  function Upvote(db: Db, session: Option<UserId>, streamId: Option<StreamId>): (o: Outcome)
    ensures session.None? ==> o == Outcome(Response(StatusUnauthenticated, Message(Unauthenticated)), db)
    ensures o.response.status == StatusOk <==>
      && session.Some? && streamId.Some?
      && Vote(session.value, streamId.value) !in db.votes && StreamExists(db, streamId.value)
    ensures session.Some? && o.response.status != StatusOk ==>
      o == Outcome(Response(StatusUnauthenticated, Message(UpvoteFailed)), db)
    ensures o.response.status == StatusOk ==>
      var v := Vote(session.value, streamId.value);
      && o.response.body == Upvoted(v.streamId)
      && o.db.streams == db.streams && o.db.current == db.current && o.db.nextId == db.nextId
      // exactly the pair is added
      && (forall w :: w in o.db.votes <==> w in db.votes || w == v)
      && |o.db.votes| == |db.votes| + 1
      && VoteCount(o.db.votes, v.streamId) == VoteCount(db.votes, v.streamId) + 1
      && (forall sid :: sid != v.streamId ==> VoteCount(o.db.votes, sid) == VoteCount(db.votes, sid))
  {
    if session.None? then
      Outcome(Response(StatusUnauthenticated, Message(Unauthenticated)), db)
    else if streamId.None? then
      Outcome(Response(StatusUnauthenticated, Message(UpvoteFailed)), db)
    else
      var v := Vote(session.value, streamId.value);
      if v in db.votes || !StreamExists(db, v.streamId) then
        Outcome(Response(StatusUnauthenticated, Message(UpvoteFailed)), db)
      else
        VoteCountAppendOne(db.votes, v);
        Outcome(Response(StatusOk, Upvoted(v.streamId)), db.(votes := db.votes + [v]))
  }
}

=== FILE: youtube_url.dfy ===
/** The YouTube link recogniser of the add-stream route:
    `/^(?:(?:https?:)?\/\/)?(?:www\.)?(?:m\.)?(?:youtu(?:be)?\.com\/(?:v\/|embed\/|watch(?:\/|\?v=))|youtu\.be\/)((?:\w|-){11})(?:\S+)?$/`
    and `extractYouTubeId`, which returns capture group 1 or null.

    The part of the regex in front of the id is a sequence of four groups, each a
    choice among literal strings: the optional scheme, the optional `www.` and `m.`,
    and the required host with its path (the alternation written out as its nine
    strings). `Accepts` is what such a sequence of groups matches, with the regex's
    backtracking; `ParseParts` is a parser that never backtracks. Under the condition
    `Unambiguous` the two agree, and the regex's groups meet it. */
module YouTubeUrl {
  import opened Js

  predicate StartsWith(s: string, p: string) {
    |p| <= |s| && s[..|p|] == p
  }

  /** A group of the regex: a choice among `options`, which may be skipped when
      `optional` (a trailing `?`). */
  datatype Part = Part(options: seq<string>, optional: bool)

  /** `(?:(?:https?:)?\/\/)?` */
  const Scheme: Part := Part(["https://", "http://", "//"], true)
  /** `(?:www\.)?` */
  const Www: Part := Part(["www."], true)
  /** `(?:m\.)?` */
  const Mobile: Part := Part(["m."], true)
  /** `(?:youtu(?:be)?\.com\/(?:v\/|embed\/|watch(?:\/|\?v=))|youtu\.be\/)` */
  const Host: Part := Part(["youtube.com/v/", "youtube.com/embed/", "youtube.com/watch/", "youtube.com/watch?v=",
                            "youtu.com/v/", "youtu.com/embed/", "youtu.com/watch/", "youtu.com/watch?v=",
                            "youtu.be/"], false)
  /** Everything in front of the captured id. */
  const Prefix: seq<Part> := [Scheme, Www, Mobile, Host]

  /** The strings `parts` match in full, trying every choice as the regex does. */
  ghost predicate Accepts(parts: seq<Part>, p: string)
    decreases |parts|
  {
    if parts == [] then p == []
    else
      || (parts[0].optional && Accepts(parts[1..], p))
      || exists k :: 0 <= k <= |p| && p[..k] in parts[0].options && Accepts(parts[1..], p[k..])
  }

  /** Everything the regex accepts in front of the captured id. */
  ghost predicate IsPrefix(p: string) {
    Accepts(Prefix, p)
  }

  const IdLength: nat := 11

  /** `(?:\w|-)`: `\w` is `[A-Za-z0-9_]` for a regex without the `u` or `i` flag. */
  predicate IsIdChar(c: char) {
    ('A' <= c <= 'Z') || ('a' <= c <= 'z') || ('0' <= c <= '9') || c == '_' || c == '-'
  }

  predicate IsVideoId(id: string) {
    |id| == IdLength && forall i :: 0 <= i < |id| ==> IsIdChar(id[i])
  }

  /** `url` matches the anchored regex with `id` as capture group 1: an accepted
      prefix, exactly eleven id characters, then nothing or only non-whitespace. */
  ghost predicate Matches(url: string, id: string) {
    exists n :: 0 <= n <= |url| && IsPrefix(url[..n]) && n + IdLength <= |url|
      && url[n..n + IdLength] == id && IsVideoId(id) && NoWhitespace(url[n + IdLength..])
  }

  /** The index of the first of `options` that `s` starts with. */
  function FirstOption(s: string, options: seq<string>): (r: Option<nat>)
    ensures r.Some? ==> r.value < |options| && StartsWith(s, options[r.value])
    ensures r.None? <==> forall i :: 0 <= i < |options| ==> !StartsWith(s, options[i])
  {
    if options == [] then None
    else if StartsWith(s, options[0]) then Some(0)
    else match FirstOption(s, options[1..])
      case None => None
      case Some(i) => Some(i + 1)
  }

  /** The length of what `parts` match at the start of `s`, taking the first option
      of each group that fits and skipping an optional group only when none does. */
  function ParseParts(s: string, parts: seq<Part>): (r: Option<nat>)
    ensures r.Some? ==> r.value <= |s|
    decreases |parts|
  {
    if parts == [] then Some(0)
    else
      match FirstOption(s, parts[0].options)
      case Some(i) =>
        var k := |parts[0].options[i]|;
        (match ParseParts(s[k..], parts[1..])
         case None => None
         case Some(m) => Some(k + m))
      case None =>
        if parts[0].optional then ParseParts(s, parts[1..]) else None
  }

  /** Length of the accepted prefix at the start of `url`, if there is one. */
  function PrefixLength(url: string): (r: Option<nat>)
    ensures r.Some? ==> r.value <= |url|
  {
    ParseParts(url, Prefix)
  }

  /** `extractYouTubeId`: capture group 1 of the match, or null. */
  function ExtractYouTubeId(url: string): (r: Option<string>)
    ensures r.Some? ==> IsVideoId(r.value)
  {
    match PrefixLength(url)
    case None => None
    case Some(n) =>
      if n + IdLength <= |url| && IsVideoId(url[n..n + IdLength]) && NoWhitespace(url[n + IdLength..])
      then Some(url[n..n + IdLength])
      else None
  }

  /** What the parser consumes, the groups accept. */
  lemma {:induction false} ParsePartsSound(s: string, parts: seq<Part>)
    ensures ParseParts(s, parts).Some? ==> Accepts(parts, s[..ParseParts(s, parts).value])
    decreases |parts|
  {
    if parts != [] && ParseParts(s, parts).Some? {
      var n := ParseParts(s, parts).value;
      match FirstOption(s, parts[0].options)
      case Some(i) =>
        var k := |parts[0].options[i]|;
        ParsePartsSound(s[k..], parts[1..]);
        var p := s[..n];
        assert p[..k] == s[..k] && p[k..] == s[k..][..n - k];
      case None =>
        ParsePartsSound(s, parts[1..]);
    }
  }

  /** No option is a prefix of another. */
  predicate PrefixFree(options: seq<string>) {
    forall i, j :: 0 <= i < |options| && 0 <= j < |options| && i != j ==> !StartsWith(options[j], options[i])
  }

  /** Some option of the groups that may come first starts with `c`. */
  predicate CanStartWith(parts: seq<Part>, c: char)
    decreases |parts|
  {
    && parts != []
    && (|| (exists i :: 0 <= i < |parts[0].options| && parts[0].options[i] != [] && parts[0].options[i][0] == c)
        || (parts[0].optional && CanStartWith(parts[1..], c)))
  }

  /** Each group's options are non-empty and prefix-free, an optional group cannot
      start like anything that may follow it, and the last group is required. Then at
      most one choice of options fits the start of any string. */
  predicate Unambiguous(parts: seq<Part>)
    decreases |parts|
  {
    && parts != []
    && (forall i :: 0 <= i < |parts[0].options| ==> parts[0].options[i] != [])
    && PrefixFree(parts[0].options)
    && (parts[0].optional ==>
          && |parts| > 1
          && forall i :: 0 <= i < |parts[0].options| ==> !CanStartWith(parts[1..], parts[0].options[i][0]))
    && (|parts| > 1 ==> Unambiguous(parts[1..]))
  }

  /** What unambiguous groups accept is non-empty and starts as one of their options. */
  lemma {:induction false} AcceptedStart(parts: seq<Part>, p: string)
    requires Unambiguous(parts) && Accepts(parts, p)
    ensures |p| > 0 && CanStartWith(parts, p[0])
    decreases |parts|
  {
    if parts[0].optional && Accepts(parts[1..], p) {
      AcceptedStart(parts[1..], p);
    } else {
      var k :| 0 <= k <= |p| && p[..k] in parts[0].options && Accepts(parts[1..], p[k..]);
      var i :| 0 <= i < |parts[0].options| && parts[0].options[i] == p[..k];
      assert p[0] == parts[0].options[i][0];
    }
  }

  /** Two options that both start `s` are the same option. */
  lemma SameOption(s: string, options: seq<string>, i: nat, j: nat)
    requires PrefixFree(options) && i < |options| && j < |options|
    requires StartsWith(s, options[i]) && StartsWith(s, options[j])
    ensures options[i] == options[j]
  {
  }

  /** With the option the regex chose at the start of `s`, the parser takes the same
      length. */
  lemma ChosenOptionFound(s: string, part: Part, k: nat)
    requires PrefixFree(part.options) && k <= |s| && s[..k] in part.options
    ensures FirstOption(s, part.options).Some?
    ensures |part.options[FirstOption(s, part.options).value]| == k
  {
    var j :| 0 <= j < |part.options| && part.options[j] == s[..k];
    SameOption(s, part.options, FirstOption(s, part.options).value, j);
  }

  /** When the regex skips an optional group, the parser finds none of its options. */
  lemma SkippedOptionAbsent(s: string, parts: seq<Part>, n: nat)
    requires Unambiguous(parts) && parts[0].optional
    requires n <= |s| && Accepts(parts[1..], s[..n])
    ensures FirstOption(s, parts[0].options).None?
  {
    AcceptedStart(parts[1..], s[..n]);
  }

  /** Where the regex takes an option of the first group, that option ends the
      first `k` characters and the other groups accept the rest up to `n`. */
  lemma ChosenSplit(s: string, parts: seq<Part>, n: nat) returns (k: nat)
    requires parts != [] && n <= |s| && Accepts(parts, s[..n])
    requires !(parts[0].optional && Accepts(parts[1..], s[..n]))
    ensures k <= n && s[..k] in parts[0].options && Accepts(parts[1..], s[k..][..n - k])
  {
    var p := s[..n];
    k :| 0 <= k <= |p| && p[..k] in parts[0].options && Accepts(parts[1..], p[k..]);
    assert s[..k] == p[..k] && s[k..][..n - k] == p[k..];
  }

  /** The parser takes the option that fits, then goes on. */
  lemma TakeStep(s: string, parts: seq<Part>, i: nat, n: nat)
    requires parts != [] && FirstOption(s, parts[0].options) == Some(i)
    requires i < |parts[0].options| && |parts[0].options[i]| <= n <= |s|
    requires ParseParts(s[|parts[0].options[i]|..], parts[1..]) == Some(n - |parts[0].options[i]|)
    ensures ParseParts(s, parts) == Some(n)
  {
  }

  /** The parser skips an optional group none of whose options fits. */
  lemma SkipStep(s: string, parts: seq<Part>, n: nat)
    requires parts != [] && parts[0].optional && FirstOption(s, parts[0].options).None?
    requires ParseParts(s, parts[1..]) == Some(n)
    ensures ParseParts(s, parts) == Some(n)
  {
  }

  /** Whatever the groups accept at the start of `s`, the parser finds in full,
      whatever follows it. */
  lemma {:induction false} ParsePartsComplete(s: string, parts: seq<Part>, n: nat)
    requires parts == [] || Unambiguous(parts)
    requires n <= |s| && Accepts(parts, s[..n])
    ensures ParseParts(s, parts) == Some(n)
    decreases |parts|
  {
    if parts != [] {
      if parts[0].optional && Accepts(parts[1..], s[..n]) {
        SkippedOptionAbsent(s, parts, n);
        ParsePartsComplete(s, parts[1..], n);
        SkipStep(s, parts, n);
      } else {
        var k := ChosenSplit(s, parts, n);
        ParsePartsComplete(s[k..], parts[1..], n - k);
        ChosenOptionFound(s, parts[0], k);
        TakeStep(s, parts, FirstOption(s, parts[0].options).value, n);
      }
    }
  }

  // The regex's groups are unambiguous.

  /** Options that differ at a position both reach cannot start one another. */
  lemma Differ(a: string, b: string, k: nat)
    requires k < |a| && k < |b| && a[k] != b[k]
    ensures !StartsWith(a, b) && !StartsWith(b, a)
  {
    if |a| <= |b| {
      assert b[..|a|][k] == b[k];
    } else {
      assert a[..|b|][k] == a[k];
    }
  }

  lemma SchemePrefixFree()
    ensures PrefixFree(Scheme.options)
  {
    var o := Scheme.options;
    forall i, j | 0 <= i < |o| && 0 <= j < |o| && i != j ensures !StartsWith(o[j], o[i]) {
      if o[i][0] != o[j][0] {
        Differ(o[i], o[j], 0);
      } else {
        Differ(o[i], o[j], 4);
      }
    }
  }

  /** Two hosts differ in `be.com`, `.com` or `.be` at position 5 or 6, or else in
      the path. */
  lemma HostsApart(i: nat, j: nat)
    requires i < |Host.options| && j < |Host.options| && i != j
    ensures !StartsWith(Host.options[j], Host.options[i])
  {
    var o := Host.options;
    var a, b := o[i], o[j];
    if i < 4 && j < 4 {
      if a[12] != b[12] { Differ(a, b, 12); } else { Differ(a, b, 17); }
    } else if 4 <= i < 8 && 4 <= j < 8 {
      if a[10] != b[10] { Differ(a, b, 10); } else { Differ(a, b, 15); }
    } else if i < 4 || j < 4 {
      Differ(a, b, 5);
    } else {
      Differ(a, b, 6);
    }
  }

  lemma HostPrefixFree()
    ensures PrefixFree(Host.options)
  {
    forall i, j | 0 <= i < |Host.options| && 0 <= j < |Host.options| && i != j
      ensures !StartsWith(Host.options[j], Host.options[i])
    {
      HostsApart(i, j);
    }
  }

  lemma HostStartsWithY(c: char)
    requires CanStartWith([Host], c)
    ensures c == 'y'
  {
    var i :| 0 <= i < |Host.options| && Host.options[i] != [] && Host.options[i][0] == c;
  }

  lemma AfterSchemeStarts(c: char)
    requires CanStartWith([Www, Mobile, Host], c)
    ensures c in {'w', 'm', 'y'}
  {
    assert [Www, Mobile, Host][1..] == [Mobile, Host];
    assert [Mobile, Host][1..] == [Host];
    if CanStartWith([Host], c) {
      HostStartsWithY(c);
    }
  }

  /** The groups of the regex are unambiguous: the scheme starts with `h` or `/`, then
      `www.` with `w`, `m.` with `m` and every host with `y`. */
  lemma PrefixUnambiguous()
    ensures Unambiguous(Prefix)
  {
    SchemePrefixFree();
    HostPrefixFree();
    assert Prefix[1..] == [Www, Mobile, Host];
    assert [Www, Mobile, Host][1..] == [Mobile, Host];
    assert [Mobile, Host][1..] == [Host];
    assert Unambiguous([Host]);
    forall c | CanStartWith([Host], c) ensures c == 'y' {
      HostStartsWithY(c);
    }
    assert Unambiguous([Mobile, Host]);
    forall c | CanStartWith([Mobile, Host], c) ensures c in {'m', 'y'} {
      if CanStartWith([Host], c) {
        HostStartsWithY(c);
      }
    }
    assert Unambiguous([Www, Mobile, Host]);
    forall c | CanStartWith([Www, Mobile, Host], c) ensures c in {'w', 'm', 'y'} {
      AfterSchemeStarts(c);
    }
  }

  /** The parser finds exactly the accepted prefixes. */
  lemma PrefixLengthSound(url: string)
    ensures PrefixLength(url).Some? ==> IsPrefix(url[..PrefixLength(url).value])
  {
    ParsePartsSound(url, Prefix);
  }

  /** Every accepted prefix is found in full, whatever follows it: the prefix of a
      match is unique and the parser never gives up on one. */
  lemma PrefixLengthComplete(url: string, n: nat)
    requires n <= |url| && IsPrefix(url[..n])
    ensures PrefixLength(url) == Some(n)
  {
    PrefixUnambiguous();
    ParsePartsComplete(url, Prefix, n);
  }

  /** An id `extractYouTubeId` returns is what the regex captures. */
  lemma ExtractYouTubeIdSound(url: string)
    ensures ExtractYouTubeId(url).Some? ==> Matches(url, ExtractYouTubeId(url).value)
  {
    PrefixLengthSound(url);
  }

  /** `extractYouTubeId(url)` returns `id` exactly when the regex matches `url` and
      captures `id`, and null exactly when it does not match at all. */
  lemma ExtractYouTubeIdIsExact(url: string, id: string)
    ensures ExtractYouTubeId(url) == Some(id) <==> Matches(url, id)
  {
    ExtractYouTubeIdSound(url);
    if Matches(url, id) {
      var n :| 0 <= n <= |url| && IsPrefix(url[..n]) && n + IdLength <= |url|
        && url[n..n + IdLength] == id && IsVideoId(id) && NoWhitespace(url[n + IdLength..]);
      PrefixLengthComplete(url, n);
    }
  }

  /** Any accepted prefix followed by eleven id characters and a whitespace-free tail
      yields those eleven characters; in particular a longer run of id characters is
      cut to its first eleven, the rest falling into the `(?:\S+)?` tail. */
  lemma IdAfterPrefixIsExtracted(p: string, id: string, rest: string)
    requires IsPrefix(p) && IsVideoId(id) && NoWhitespace(rest)
    ensures ExtractYouTubeId(p + id + rest) == Some(id)
  {
    var url := p + id + rest;
    var n := |p|;
    assert url[..n] == p && url[n..n + IdLength] == id && url[n + IdLength..] == rest;
    ExtractYouTubeIdIsExact(url, id);
  }

  /** An accepted prefix starts with the first character of a scheme, `www.`, `m.` or
      a host. */
  lemma PrefixStart(p: string)
    requires IsPrefix(p)
    ensures |p| > 0 && p[0] in {'h', '/', 'w', 'm', 'y'}
  {
    PrefixUnambiguous();
    AcceptedStart(Prefix, p);
    assert Prefix[1..] == [Www, Mobile, Host];
    if CanStartWith([Www, Mobile, Host], p[0]) {
      AfterSchemeStarts(p[0]);
    }
  }

  /** A link with whitespace in front, as `handleAddSong` may send it untrimmed, is
      rejected. */
  lemma LeadingWhitespaceIsRejected(url: string)
    requires |url| > 0 && IsWhitespace(url[0])
    ensures ExtractYouTubeId(url).None?
  {
    ExtractYouTubeIdSound(url);
    if ExtractYouTubeId(url).Some? {
      var n :| 0 <= n <= |url| && IsPrefix(url[..n]);
      PrefixStart(url[..n]);
    }
  }
}
